=== FILE: README.md ===
# Jikkou reconciliation core in Dafny

Jikkou reconciles the resources of a Kafka cluster. These include topics, ACL entries, quotas and schemas. It compares the *actual* state read from the cluster with the *desired* state taken from resource files. From that comparison it computes one change per resource key: `ADD`, `DELETE`, `UPDATE` or `NONE`. It then either reports those changes (dry run) or applies them.

This project models the pure and stateful core of that process:

- `Change` is the change-type vocabulary. It covers the reduction of several change types into the type of a composite change, and value changes (`before`/`after`).
- `KafkaAclEntryChangeComputer` is the keyed diff for topic ACL entries. It covers the `(username, topic, permission)` key, the change-type rule, the value mapper and its "both arguments are null" error, duplicate-key detection, and orphan handling.
- `TopicChangeComputer` is the topic diff:
  - added topics, deleted topics and topics annotated with `jikkou.io/delete`;
  - config-entry diffs;
  - the `-1` sentinels for partitions and replication factor;
  - orphan deletion;
  - the scenarios exercised by the repository's tests.
- `TopicsCommand` is the legacy `topics` command:
  - candidate filtering;
  - the dry-run report, which lists the changes the operation accepts and the unchanged topics;
  - the apply report, which maps each asynchronous outcome to `CHANGED`/`FAILED`;
  - the trailing `OK` results for unchanged topics.
- `AnyQualifier` is the extension qualifier that keeps the union (with repetitions) of what each member qualifier keeps. It also covers its `equals`, 32-bit `hashCode` and `toString`.
- `HasMetadataAcceptable` decides whether a resource or resource type is accepted by the `@AcceptResource` annotations of a class.
- `FieldSelector` covers `metadata.name` with the `IN`/`NOTIN` operators.
- `AcceptsReconciliationModes`: an empty set of modes accepts every mode.
- `TopicMaxReplicationFactorValidation` is a class holding the configured maximum. It models `configure` and `validateTopic`.
- `KafkaTopicMinReplicasTransformation` is a class holding the configured minimum. Its transform raises the replica count to that minimum.
- `AclUserPolicy` covers its null checks, defaulting, equality and 32-bit hash.

Supporting modules:

- `Wrappers` holds `Option` and `Result`. Java `null` becomes `None`, and thrown exceptions become `Failure`.
- `JavaHash` holds the 32-bit wrap-around of `31 * h + e`, as used by `Objects.hash` and `String.hashCode`.
- `Resource` holds object metadata and the delete annotation.
- `KafkaTopics` holds the topic resource (metadata and spec) shared by the topic diff, the `topics` command and the min-replicas transformation, and the `-1` sentinels.

Collaborators whose code is not part of this model are passed in as function parameters:

- `TopicOperation.test`;
- the change describer;
- the `isResourceCandidate` filter;
- `ResourceType.canAccept`;
- `KafkaAclEntryAdapter.map`;
- a member qualifier's `filter`, `toString` and `hashCode`;
- the hashes of role and permission sets.

## Model

| member | source | states |
|---|---|---|
| Change.ComputeChangeTypeFrom | jikkou-api/src/main/java/io/streamthoughts/jikkou/api/change/Change.java:42-52 | The reduction of a list of change types is `UPDATE` as soon as one of them is not `NONE`, and `NONE` exactly when all of them are `NONE` (also for the empty list); it is never `ADD` or `DELETE` |
| Change.Combine | jikkou-api/src/main/java/io/streamthoughts/jikkou/api/change/Change.java:52 | The step of the reduction gives `NONE` exactly when both sides are `NONE`, and never `ADD` or `DELETE` |
| Change.CombineCommutative | jikkou-api/src/main/java/io/streamthoughts/jikkou/api/change/Change.java:52 | The binary step of the reduction is commutative |
| Change.CombineAssociative | jikkou-api/src/main/java/io/streamthoughts/jikkou/api/change/Change.java:52 | The binary step of the reduction is associative |
| Change.CombineIdentity | jikkou-api/src/main/java/io/streamthoughts/jikkou/api/change/Change.java:52 | Seeding with `NONE` maps one type `t` to `NONE` if `t` is `NONE` and to `UPDATE` otherwise, on either side; `NONE` is not an identity of the step (`NONE` with `ADD` gives `UPDATE`) |
| Change.UniformAddsReduceToUpdate | jikkou-api/src/main/java/io/streamthoughts/jikkou/api/change/Change.java:42-52 | A non-empty list made only of `ADD`s, or only of `DELETE`s, still reduces to `UPDATE`, not to that type |
| Change.ReduceConcat | jikkou-api/src/main/java/io/streamthoughts/jikkou/api/change/Change.java:49-52 | Reducing a concatenation equals combining the reductions of its parts, so the reduction can be split or parallelised |
| Change.ReduceOrderIndependent | jikkou-api/src/main/java/io/streamthoughts/jikkou/api/change/Change.java:49-52 | Two lists with the same multiset of change types reduce to the same result, whatever their order |
| Change.ValueChangeWith | jikkou-providers/jikkou-provider-kafka/src/test/java/io/streamthoughts/jikkou/kafka/change/TopicChangeComputerTest.java:177-325 | A value change is `ADD` iff only the new value exists, `DELETE` iff only the old one exists, `NONE` iff both are equal (both present with the same value, or both absent), `UPDATE` iff both exist and differ; it keeps both values |
| KafkaAclEntryChangeComputer.SameKeyIffSameTriple | jikkou-extension-kafka-aiven/src/main/java/io/streamthoughts/jikkou/extension/aiven/change/KafkaAclEntryChangeComputer.java:55-62 | Two entries get the same key exactly when username, topic and permission coincide; annotations do not take part in the key |
| KafkaAclEntryChangeComputer.KeyOf | jikkou-extension-kafka-aiven/src/main/java/io/streamthoughts/jikkou/extension/aiven/change/KafkaAclEntryChangeComputer.java:55-63 | The key mapper: the `(username, topic, permission)` triple of an entry; its meaning is stated by `SameKeyIffSameTriple` |
| KafkaAclEntryChangeComputer.GetChangeType | jikkou-extension-kafka-aiven/src/main/java/io/streamthoughts/jikkou/extension/aiven/change/KafkaAclEntryChangeComputer.java:50-53 | No previous entry gives `ADD`; a previous entry with no desired entry, or with a desired entry annotated for deletion, gives `DELETE`; otherwise `NONE`; never `UPDATE` |
| KafkaAclEntryChangeComputer.ValueMapper | jikkou-extension-kafka-aiven/src/main/java/io/streamthoughts/jikkou/extension/aiven/change/KafkaAclEntryChangeComputer.java:66-78 | Maps the desired entry when only it exists and the previous entry whenever one exists; fails with "both arguments are null" exactly when neither exists |
| KafkaAclEntryChangeComputer.IndexByKey | jikkou-extension-kafka-aiven/src/main/java/io/streamthoughts/jikkou/extension/aiven/change/KafkaAclEntryChangeComputer.java:43-44 | Indexing a state by the key mapper (the base class, which is not part of this model) fails exactly when two entries share a key; otherwise every entry is found under its own key and every key belongs to some entry |
| KafkaAclEntryChangeComputer.MappedValue | jikkou-extension-kafka-aiven/src/main/java/io/streamthoughts/jikkou/extension/aiven/change/KafkaAclEntryChangeComputer.java:66-76 | The value carried by a change is the adapted previous entry when one exists, else the adapted desired entry |
| KafkaAclEntryChangeComputer.ComputeChanges | jikkou-extension-kafka-aiven/src/main/java/io/streamthoughts/jikkou/extension/aiven/change/KafkaAclEntryChangeComputer.java:43-53 | Every desired key gets a change, and actual-only keys get one only when orphans are deleted; each change's type follows the change-type rule and never is `UPDATE` |
| KafkaAclEntryChangeComputer.OrphansKeptWithoutDeletion | jikkou-extension-kafka-aiven/src/main/java/io/streamthoughts/jikkou/extension/aiven/change/KafkaAclEntryChangeComputer.java:43-45 | Without orphan deletion no `DELETE` is produced for an entry that is only in the actual state; with it, such an entry is `DELETE` |
| TopicChangeComputer.ComputeConfigChanges | jikkou-providers/jikkou-provider-kafka/src/test/java/io/streamthoughts/jikkou/kafka/change/TopicChangeComputerTest.java:177-439 | Config entries in both states are compared, new entries are `ADD`, entries only in the actual state are `DELETE` when orphans are deleted and absent from the change otherwise |
| TopicChangeComputer.AddChange | jikkou-providers/jikkou-provider-kafka/src/test/java/io/streamthoughts/jikkou/kafka/change/TopicChangeComputerTest.java:147-175 | A new topic is `ADD`, with partitions, replicas and every desired config entry as `ADD`, each with no old value and the desired value as new value |
| TopicChangeComputer.DeleteChange | jikkou-providers/jikkou-provider-kafka/src/test/java/io/streamthoughts/jikkou/kafka/change/TopicChangeComputerTest.java:79-112 | A deleted topic is `DELETE` and carries no config-entry changes |
| TopicChangeComputer.HasConfigEntryChanges | jikkou-providers/jikkou-provider-kafka/src/test/java/io/streamthoughts/jikkou/kafka/change/TopicChangeComputerTest.java:79-112 | `hasConfigEntryChanges`: some config entry of the change is not `NONE`; its link to the entries is stated by `HasConfigEntryChangesIff` |
| TopicChangeComputer.HasConfigEntryChangesIff | jikkou-providers/jikkou-provider-kafka/src/test/java/io/streamthoughts/jikkou/kafka/change/TopicChangeComputerTest.java:177-325 | A change has config-entry changes exactly when not every entry is `NONE`, the fact the tests check after each diff |
| TopicChangeComputer.FieldChange | jikkou-providers/jikkou-provider-kafka/src/test/java/io/streamthoughts/jikkou/kafka/change/TopicChangeComputerTest.java:441-529 | A desired value equal to the `-1` sentinel means "keep what the cluster has": `NONE`, with the current value on both sides; otherwise the field is compared, `NONE` when equal and `UPDATE` when not |
| TopicChangeComputer.ReduceTopicFields | jikkou-providers/jikkou-provider-kafka/src/test/java/io/streamthoughts/jikkou/kafka/change/TopicChangeComputerTest.java:177-325 | The topic-level type is `NONE` exactly when partitions, replicas and every config entry are `NONE`, and `UPDATE` otherwise |
| TopicChangeComputer.UpdateChange | jikkou-providers/jikkou-provider-kafka/src/test/java/io/streamthoughts/jikkou/kafka/change/TopicChangeComputerTest.java:177-325 | A topic in both states is `UPDATE` or `NONE`, and `NONE` exactly when no field and no config entry changed |
| TopicChangeComputer.ComputeChanges | jikkou-providers/jikkou-provider-kafka/src/test/java/io/streamthoughts/jikkou/kafka/change/TopicChangeComputerTest.java:48-175 | Every desired topic gets a change, and actual-only topics only when orphans are deleted; a desired topic missing from the cluster is `ADD`, or no change at all when it is annotated for deletion; an annotated existing topic is `DELETE` |
| Resource.IsAnnotatedWithDelete | jikkou-extension-kafka-aiven/src/main/java/io/streamthoughts/jikkou/extension/aiven/change/KafkaAclEntryChangeComputer.java:52 | A resource asks for deletion when its `jikkou.io/delete` annotation is `"true"` |
| TopicChangeComputer.OrphanTopic | jikkou-providers/jikkou-provider-kafka/src/test/java/io/streamthoughts/jikkou/kafka/change/TopicChangeComputerTest.java:48-77 | By default a topic only in the cluster produces no change |
| TopicChangeComputer.DeleteAnnotation | jikkou-providers/jikkou-provider-kafka/src/test/java/io/streamthoughts/jikkou/kafka/change/TopicChangeComputerTest.java:79-145 | An annotated topic that exists becomes `DELETE`; one that does not exist produces no change |
| TopicChangeComputer.NewTopic | jikkou-providers/jikkou-provider-kafka/src/test/java/io/streamthoughts/jikkou/kafka/change/TopicChangeComputerTest.java:147-175 | A topic only in the desired state is `ADD` |
| TopicChangeComputer.UpdatedConfigEntry | jikkou-providers/jikkou-provider-kafka/src/test/java/io/streamthoughts/jikkou/kafka/change/TopicChangeComputerTest.java:177-231 | Changing one config value makes the topic `UPDATE` and that entry `UPDATE` with both values |
| TopicChangeComputer.NewConfigEntry | jikkou-providers/jikkou-provider-kafka/src/test/java/io/streamthoughts/jikkou/kafka/change/TopicChangeComputerTest.java:233-285 | Adding one config entry makes the topic `UPDATE` and that entry `ADD` |
| TopicChangeComputer.IdenticalTopics | jikkou-providers/jikkou-provider-kafka/src/test/java/io/streamthoughts/jikkou/kafka/change/TopicChangeComputerTest.java:287-325 | Identical topics give `NONE` |
| TopicChangeComputer.OrphanConfigEntry | jikkou-providers/jikkou-provider-kafka/src/test/java/io/streamthoughts/jikkou/kafka/change/TopicChangeComputerTest.java:327-439 | A config entry only in the cluster is `DELETE` (topic `UPDATE`) with orphan deletion, and ignored (topic `NONE`) without it |
| TopicChangeComputer.SentinelFields | jikkou-providers/jikkou-provider-kafka/src/test/java/io/streamthoughts/jikkou/kafka/change/TopicChangeComputerTest.java:441-529 | Desired partitions or replication factor of `-1` leave the topic `NONE` when nothing else differs |
| TopicChangeComputer.DiffWithItself | jikkou-providers/jikkou-provider-kafka/src/test/java/io/streamthoughts/jikkou/kafka/change/TopicChangeComputerTest.java:287-325 | Diffing a state against itself reports every topic of the state, `DELETE` for those annotated for deletion and `NONE` for all others |
| TopicsCommand.Candidates | src/main/java/io/streamthoughts/kafka/specs/command/topic/TopicsCommand.java:77-85 | Keeps exactly the topics whose name the candidate filter accepts, unchanged |
| TopicsCommand.CandidateChanges | src/main/java/io/streamthoughts/kafka/specs/command/topic/TopicsCommand.java:77-85 | The diff of the candidate-filtered described topics against the candidate-filtered specification; stated by `CandidatesOnly` |
| TopicsCommand.CandidatesOnly | src/main/java/io/streamthoughts/kafka/specs/command/topic/TopicsCommand.java:77-87 | A topic outside the candidates never gets a change, and a candidate gets the same change the unfiltered diff gives it |
| TopicsCommand.All | src/main/java/io/streamthoughts/kafka/specs/command/topic/TopicsCommand.java:91-93 | The list of changes has one element per key of the enumeration order, the i-th being the change of the i-th key |
| TopicsCommand.PlanResult | src/main/java/io/streamthoughts/kafka/specs/command/topic/TopicsCommand.java:95-100 | A dry-run result is `CHANGED` for a real change and `OK` for `NONE`, carrying the change and its description |
| TopicsCommand.Eligible | src/main/java/io/streamthoughts/kafka/specs/command/topic/TopicsCommand.java:94 | A change is reported in dry-run when the operation accepts it or it is `NONE`; used by `DryRunReportsEligible` |
| TopicsCommand.DryRunResults | src/main/java/io/streamthoughts/kafka/specs/command/topic/TopicsCommand.java:92-100 | The dry-run stream: the eligible changes of `all()`, in order, each mapped to its planned result; stated by `DryRunReportsEligible` and built by `PlanChanges` |
| TopicsCommand.NoneResults | src/main/java/io/streamthoughts/kafka/specs/command/topic/TopicsCommand.java:104-108 | The stream appended after applying: one `OK` result per `NONE` change of `all()`, in order; stated by `NoneResultsAreOk` and built by `ApplyAndReport` |
| TopicsCommand.AppliedResult | src/main/java/io/streamthoughts/kafka/specs/command/topic/TopicsCommand.java:117-129 | A completed apply is reported `CHANGED` with no error, a failed one `FAILED` with its error, each for the change of its key and described by the change describer |
| TopicsCommand.ApplyChanges | src/main/java/io/streamthoughts/kafka/specs/command/topic/TopicsCommand.java:114-130 | Produces one result per applied entry, in order |
| TopicsCommand.DryRunReportsEligible | src/main/java/io/streamthoughts/kafka/specs/command/topic/TopicsCommand.java:91-101 | The dry-run report holds exactly the changes the operation accepts plus the `NONE` changes, each with its planned status, never more results than changes |
| TopicsCommand.NoneResultsAreOk | src/main/java/io/streamthoughts/kafka/specs/command/topic/TopicsCommand.java:103-108 | After applying, the unchanged topics are all reported `OK` |
| TopicsCommand.PlanChanges | src/main/java/io/streamthoughts/kafka/specs/command/topic/TopicsCommand.java:91-101 | The dry-run loop builds the report of the accepted and `NONE` changes, in the order of `all()` |
| TopicsCommand.ApplyAndReport | src/main/java/io/streamthoughts/kafka/specs/command/topic/TopicsCommand.java:102-109 | The apply loop returns the applied results followed by the `OK` results of unchanged topics |
| TopicsCommand.ExecuteCommand | src/main/java/io/streamthoughts/kafka/specs/command/topic/TopicsCommand.java:75-112 | The command returns the dry-run report in dry-run mode, and otherwise the apply results then the unchanged `OK` results, for the candidate topics |
| AnyQualifier.Filter | core/src/main/java/io/streamthoughts/jikkou/core/extension/qualifier/AnyQualifier.java:42-47 | No members keep nothing; the general case, the members' results concatenated in member order, is stated by `FilterAppendMember` |
| AnyQualifier.FilterCounts | core/src/main/java/io/streamthoughts/jikkou/core/extension/qualifier/AnyQualifier.java:42-47 | Its length is the sum of the members' result lengths, and each candidate appears as often as the members keep it in total |
| AnyQualifier.FilterMembership | core/src/main/java/io/streamthoughts/jikkou/core/extension/qualifier/AnyQualifier.java:42-47 | A value is in the result iff some member qualifier keeps it |
| AnyQualifier.FilterAppendMember | core/src/main/java/io/streamthoughts/jikkou/core/extension/qualifier/AnyQualifier.java:44-46 | Adding a member appends that member's result to the previous result |
| AnyQualifier.HashCode | core/src/main/java/io/streamthoughts/jikkou/core/extension/qualifier/AnyQualifier.java:64-66 | The hash is a 32-bit Java int equal to `31 + ` the list hash of the members, wrapped to 32 bits (`Objects.hash` of one list) |
| AnyQualifier.EqualsIsStructural | core/src/main/java/io/streamthoughts/jikkou/core/extension/qualifier/AnyQualifier.java:53-66 | Equality is equality of the member lists, and equal qualifiers have equal hashes |
| AnyQualifier.Equals | core/src/main/java/io/streamthoughts/jikkou/core/extension/qualifier/AnyQualifier.java:53-58 | `equals`: the member lists are equal; stated as structural equality by `EqualsIsStructural` |
| AnyQualifier.JoinLength | core/src/main/java/io/streamthoughts/jikkou/core/extension/qualifier/AnyQualifier.java:72-74 | Joining n parts adds exactly n - 1 separators to their total length |
| AnyQualifier.Join | core/src/main/java/io/streamthoughts/jikkou/core/extension/qualifier/AnyQualifier.java:72-74 | Joining no parts gives the empty text and one part gives that part; `JoinConcat` and `JoinLength` state the general case |
| AnyQualifier.JoinConcat | core/src/main/java/io/streamthoughts/jikkou/core/extension/qualifier/AnyQualifier.java:72-74 | Joining two non-empty runs of parts is joining each run with one separator between them, so parts keep their order |
| AnyQualifier.ToString | core/src/main/java/io/streamthoughts/jikkou/core/extension/qualifier/AnyQualifier.java:72-74 | No members give the empty text and a single member gives its own text; `JoinLength` gives the length in general |
| AnyQualifier.ToStringAppendMember | core/src/main/java/io/streamthoughts/jikkou/core/extension/qualifier/AnyQualifier.java:72-74 | One more member appends `" and "` and its text, so with the zero- and one-member cases the text is fixed for every member list |
| HasMetadataAcceptable.ConcreteClassWins | jikkou-api/src/main/java/io/streamthoughts/jikkou/api/model/HasMetadataAcceptable.java:56-60 | An annotation naming a concrete resource class takes kind and version from that class and ignores its explicit kind and version |
| HasMetadataAcceptable.ExplicitKindAndVersion | jikkou-api/src/main/java/io/streamthoughts/jikkou/api/model/HasMetadataAcceptable.java:62-65 | An annotation naming the generic interface takes its explicit kind and version |
| HasMetadataAcceptable.ResourceTypeOf | jikkou-api/src/main/java/io/streamthoughts/jikkou/api/model/HasMetadataAcceptable.java:55-66 | The resource type an annotation stands for; its two cases are stated by `ConcreteClassWins` and `ExplicitKindAndVersion` |
| HasMetadataAcceptable.CanAccept | jikkou-api/src/main/java/io/streamthoughts/jikkou/api/model/HasMetadataAcceptable.java:49-68 | Acceptance holds iff the resource type derived from some annotation satisfies the predicate; no annotation accepts nothing |
| HasMetadataAcceptable.CanAcceptResource | jikkou-api/src/main/java/io/streamthoughts/jikkou/api/model/HasMetadataAcceptable.java:35-37 | A resource is accepted iff some derived resource type accepts it |
| HasMetadataAcceptable.CanAcceptType | jikkou-api/src/main/java/io/streamthoughts/jikkou/api/model/HasMetadataAcceptable.java:45-47 | A resource type is accepted iff some derived resource type accepts it |
| HasMetadataAcceptable.AddingAnnotationKeepsAcceptance | jikkou-api/src/main/java/io/streamthoughts/jikkou/api/model/HasMetadataAcceptable.java:54-67 | Adding an annotation at any position never withdraws acceptance |
| FieldSelector.Apply | jikkou-core/src/test/java/io/streamthoughts/jikkou/core/selectors/FieldSelectorTest.java:36-70 | `IN` selects a resource iff its name is among the values; `NOTIN` iff it is not |
| FieldSelector.NotInIsComplement | jikkou-core/src/test/java/io/streamthoughts/jikkou/core/selectors/FieldSelectorTest.java:36-70 | `NOTIN` selects exactly the resources `IN` rejects for the same values |
| FieldSelector.NameAloneDecides | jikkou-core/src/test/java/io/streamthoughts/jikkou/core/selectors/FieldSelectorTest.java:26-52 | Resources with the same name get the same answer, whatever their labels and annotations |
| FieldSelector.SelectorScenario | jikkou-core/src/test/java/io/streamthoughts/jikkou/core/selectors/FieldSelectorTest.java:26-70 | Test replay only: the test resource is selected by `IN` with its name and rejected by `NOTIN` with it; the general promise is `Apply`'s contract |
| AcceptsReconciliationModes.EmptySetAcceptsEveryMode | jikkou-api/src/main/java/io/streamthoughts/jikkou/annotation/AcceptsReconciliationModes.java:27-38 | An empty set of declared modes accepts every mode |
| AcceptsReconciliationModes.NonEmptySetAcceptsListedOnly | jikkou-api/src/main/java/io/streamthoughts/jikkou/annotation/AcceptsReconciliationModes.java:27-38 | A non-empty set of declared modes accepts exactly the modes it lists |
| AcceptsReconciliationModes.AddingModeKeepsAcceptance | jikkou-api/src/main/java/io/streamthoughts/jikkou/annotation/AcceptsReconciliationModes.java:27-38 | Within a non-empty set of modes, declaring an extra mode keeps every previously accepted mode accepted and accepts the extra one (for the empty set this fails, see `FirstModeNarrows`) |
| AcceptsReconciliationModes.FirstModeNarrows | jikkou-api/src/main/java/io/streamthoughts/jikkou/annotation/AcceptsReconciliationModes.java:27-38 | Special case of `NonEmptySetAcceptsListedOnly`, kept as an illustration: declaring one mode turns "accept all" into "accept only that one" |
| AcceptsReconciliationModes.Accepts | jikkou-api/src/main/java/io/streamthoughts/jikkou/annotation/AcceptsReconciliationModes.java:27-38 | A controller accepts a mode when it declares no modes or declares that one; its consequences are the lemmas above |
| TopicMaxReplicationFactorValidation.Validation.constructor | jikkou-extension-kafka/src/main/java/io/streamthoughts/jikkou/kafka/validations/TopicMaxReplicationFactorValidation.java:40 | The no-argument constructor leaves the maximum unset |
| TopicMaxReplicationFactorValidation.Validation.WithMax | jikkou-extension-kafka/src/main/java/io/streamthoughts/jikkou/kafka/validations/TopicMaxReplicationFactorValidation.java:46-48 | The explicit constructor stores the given maximum |
| TopicMaxReplicationFactorValidation.Validation.Configure | jikkou-extension-kafka/src/main/java/io/streamthoughts/jikkou/kafka/validations/TopicMaxReplicationFactorValidation.java:54-65 | Configuration stores the configured maximum when the key is present, and otherwise fails naming the missing key and leaving the state unchanged. The error reports the property as required for `TopicNameSuffixValidation`, the class name the source formats into the message at line 61, although the failing class is this validation |
| TopicMaxReplicationFactorValidation.Validation.ValidateTopic | jikkou-extension-kafka/src/main/java/io/streamthoughts/jikkou/kafka/validations/TopicMaxReplicationFactorValidation.java:71-82 | A topic is invalid iff it declares a replication factor other than the `-1` sentinel that exceeds the maximum; the error names the topic, its factor and the maximum |
| KafkaTopicMinReplicasTransformation.Transformation.Init | jikkou-providers/jikkou-provider-kafka/src/test/java/io/streamthoughts/jikkou/kafka/transform/KafkaTopicMinReplicasTransformationTest.java:36-42 | Initialisation stores the configured minimum |
| KafkaTopicMinReplicasTransformation.Transformation.Transform | jikkou-providers/jikkou-provider-kafka/src/test/java/io/streamthoughts/jikkou/kafka/transform/KafkaTopicMinReplicasTransformationTest.java:44-84 | The transform always returns a topic; one with at least the minimum replicas is returned unchanged, and one with fewer gets exactly the minimum, with nothing else changed |
| KafkaTopicMinReplicasTransformation.TransformIdempotent | jikkou-providers/jikkou-provider-kafka/src/test/java/io/streamthoughts/jikkou/kafka/transform/KafkaTopicMinReplicasTransformationTest.java:44-84 | Transforming an already transformed topic changes nothing |
| KafkaTopicMinReplicasTransformation.Transformation.constructor | jikkou-providers/jikkou-provider-kafka/src/test/java/io/streamthoughts/jikkou/kafka/transform/KafkaTopicMinReplicasTransformationTest.java:40 | A new transformation holds the Java default 0 as its minimum until `init` sets it |
| KafkaTopicMinReplicasTransformation.MinReplicasScenario | jikkou-providers/jikkou-provider-kafka/src/test/java/io/streamthoughts/jikkou/kafka/transform/KafkaTopicMinReplicasTransformationTest.java:36-84 | Test replay only: after `init` with a minimum of 3, a topic with 6 replicas keeps 6 and one with 1 gets 3; the general promise is `Transform`'s contract |
| AclUserPolicy.Create | src/main/java/io/streamthoughts/kafka/specs/acl/AclUserPolicy.java:44-50 | Construction fails on a missing principal (checked first) or missing roles, with the source's messages; missing permissions become the empty set; otherwise the fields are stored |
| AclUserPolicy.HashCode | src/main/java/io/streamthoughts/kafka/specs/acl/AclUserPolicy.java:83-86 | The hash is always a 32-bit Java int |
| AclUserPolicy.EqualsIsStructural | src/main/java/io/streamthoughts/kafka/specs/acl/AclUserPolicy.java:70-86 | Equality is equality of all three fields, and equal policies have equal hashes |
| AclUserPolicy.Equals | src/main/java/io/streamthoughts/kafka/specs/acl/AclUserPolicy.java:70-78 | `equals`: principal, roles and permissions are equal; stated as structural equality by `EqualsIsStructural` |
| AclUserPolicy.CreateEquality | src/main/java/io/streamthoughts/kafka/specs/acl/AclUserPolicy.java:44-78 | Two successfully built policies are equal iff principal, roles and (defaulted) permissions are equal |
| JavaHash.Wrap | src/main/java/io/streamthoughts/kafka/specs/acl/AclUserPolicy.java:83-86 | Reducing an integer to a Java int yields a value in the 32-bit range, congruent modulo 2^32, and leaves 32-bit values unchanged |
| JavaHash.FoldAppend | src/main/java/io/streamthoughts/kafka/specs/acl/AclUserPolicy.java:83-86 | Folding one more element applies one more `31 * h + e` step, wrapped to 32 bits |

## Left out

- Reading from and writing to Kafka, the Aiven API, Schema Registry and Kafka Connect are not modelled. This covers the `AdminClient`, the describe operations, the collectors, controllers, the REST API and the CLI. What the core receives from them is a parameter of the model.
- The concurrency of `TopicsCommand.applyChanges` is not modelled. The asynchronous results arrive as a list of `(key, Completed | Failed(error))` entries in the order the operation returns them, and the command's `all()` order is a parameter.
- `TopicOperation`, `KafkaAclEntryAdapter`, `ResourceType.canAccept`, the member qualifiers and the change describer are not part of this model. They are function parameters.
- The sources of `ChangeComputer`/`ValueChangeComputer` (the base classes), `TopicChanges`, `KafkaTopics`, `KafkaConstants`, `JikkouMetadataAnnotations`, `FutureUtils`, `FieldSelector`, `ReconciliationMode` and `KafkaTopicMinReplicasTransformation` are not part of this model. `FieldSelector` and `KafkaTopicMinReplicasTransformation` are modelled from their tests, and the others' behaviour is taken from the callers and tests that use them:
  - the delete annotation is `jikkou.io/delete` with value `"true"`;
  - the "no value" sentinels for partitions and replication factor are `-1`;
  - a completed future is reported `CHANGED` and a failed one `FAILED`, and an applied result's description is `describe(change)` from the change describer;
  - the modes are `CREATE`, `DELETE`, `UPDATE` and `FULL`.
- The topic diff treats orphans the same way for topics and for config entries: one `deleteOrphans` flag governs both.
- TopicsCommand.CandidateChanges: the legacy two-argument `TopicChanges.computeChanges(topics, specs)` (TopicsCommand.java lines 82-85) is modelled by the topic diff `TopicChangeComputer.ComputeChanges`, with its orphan flag left as a parameter. The legacy diff covers the union of both states and leaves the choice of what to apply to the operation's `test`, which corresponds to `deleteOrphans = true`. This correspondence is assumed, because `TopicChanges` is not part of this model. The contracts of `TopicsCommand.ExecuteCommand` hold for either value.
- JavaHash.StringHash: folds Unicode scalar values, where Java folds UTF-16 code units. The two agree only on strings of Basic Multilingual Plane characters. A character above U+FFFF, such as U+1F600, hashes differently.
- AclUserPolicy.Create: the Java object keeps the caller's `roles` set by reference and wraps `permissions` in an unmodifiable view. A later change to those sets by the caller would change `equals` and `hashCode`. The model's sets are values, so this aliasing is not captured.
- FieldSelector.Apply: only the `metadata.name` key with the `IN` and `NOTIN` operators is modelled. It requires that key. The other field paths, the `MATCHES` operator and selector parsing are not modelled.
- KafkaTopicMinReplicasTransformation.Transformation.Transform: the class source is not shown, and a topic without a replica count is not covered by its test. The model represents such a topic by the `-1` sentinel and treats it as any other value below the minimum, raising it to the minimum. This choice is assumed. Fed into the topic diff, it turns "keep what the cluster has" into a replica `UPDATE`. The short-integer replica type is not modelled.
- TopicChangeComputer.ComputeConfigChanges: config entries are plain strings. Kafka's default, sensitive and source flags on config values are not modelled.
- AclUserPolicy.HashCode: states only that the hash is a 32-bit int. Its exact value is the `Objects.hash` fold written in the body, and equal policies hashing alike is stated by `AclUserPolicy.EqualsIsStructural`.
- KafkaAclEntryChangeComputer.GetChangeType: the delete annotation's value is matched exactly as `"true"`. Case-insensitive boolean parsing is not modelled.
- AnyQualifier.Filter: the extension-type argument passed through to the members is not modelled. It is part of each member's filter parameter.
- TopicMaxReplicationFactorValidation.Validation.Configure: the storage of the whole configuration by the base class is not modelled. Only the maximum it reads is kept.
- The remaining files of the repository are outside this model:
  - collectors, controllers and providers;
  - YAML writing, the broker `describe` subcommand, the REST controllers and the integration tests.

=== FILE: accepts_reconciliation_modes.dfy ===
/** `@AcceptsReconciliationModes`: the reconciliation modes a controller accepts;
    an empty set means that every mode is accepted. */
module AcceptsReconciliationModes {

  datatype ReconciliationMode = CREATE | DELETE | UPDATE | FULL

  /** Whether a controller annotated with `modes` accepts `mode`. */
  predicate Accepts(modes: set<ReconciliationMode>, mode: ReconciliationMode) {
    modes == {} || mode in modes
  }

  lemma EmptySetAcceptsEveryMode(mode: ReconciliationMode)
    ensures Accepts({}, mode)
  {
  }

  /** With a non-empty set, exactly the listed modes are accepted. */
  lemma NonEmptySetAcceptsListedOnly(modes: set<ReconciliationMode>, mode: ReconciliationMode)
    requires modes != {}
    ensures Accepts(modes, mode) <==> mode in modes
  {
  }

  /** Within a non-empty set, listing one more mode keeps every accepted mode
      accepted and adds the new one. */
  lemma AddingModeKeepsAcceptance(modes: set<ReconciliationMode>, extra: ReconciliationMode, mode: ReconciliationMode)
    requires modes != {}
    ensures Accepts(modes, mode) ==> Accepts(modes + {extra}, mode)
    ensures Accepts(modes + {extra}, extra)
  {
  }

  /** The one exception to monotonicity: the first listed mode turns "every
      mode" into "only that mode". */
  lemma FirstModeNarrows(first: ReconciliationMode, other: ReconciliationMode)
    requires first != other
    ensures Accepts({}, other) && !Accepts({first}, other)
  {
  }
}

=== FILE: acl_user_policy.dfy ===
/** `AclUserPolicy`: an immutable value of a principal, its roles and its
    permissions, built by a constructor that rejects a null principal or null
    roles and turns null permissions into the empty set. */
module AclUserPolicy {
  import opened Wrappers
  import JavaHash

  /** `NullPointerException` from `Objects.requireNonNull`, with its message. */
  datatype NullArgument = NullArgument(message: string)

  datatype AclUserPolicy<P> = AclUserPolicy(principal: string, roles: set<string>, permissions: set<P>)

  /** The constructor: the principal is checked first, then the roles. */
  function Create<P>(principal: Option<string>, roles: Option<set<string>>, permissions: Option<set<P>>)
    : (r: Result<AclUserPolicy<P>, NullArgument>)
    ensures principal.None? ==> r == Failure(NullArgument("principal cannot be null"))
    ensures principal.Some? && roles.None? ==> r == Failure(NullArgument("roles cannot be null"))
    ensures r.Success? <==> principal.Some? && roles.Some?
    ensures r.Success? ==>
      r.value.principal == principal.value && r.value.roles == roles.value &&
      r.value.permissions == permissions.GetOr({})
  {
    if principal.None? then Failure(NullArgument("principal cannot be null"))
    else if roles.None? then Failure(NullArgument("roles cannot be null"))
    else Success(AclUserPolicy(principal.value, roles.value, if permissions.None? then {} else permissions.value))
  }

  /** `equals`: principal, roles and permissions all equal. */
  predicate Equals<P(==)>(a: AclUserPolicy<P>, b: AclUserPolicy<P>) {
    a.principal == b.principal && a.roles == b.roles && a.permissions == b.permissions
  }

  /** `hashCode`: `Objects.hash(principal, roles, permissions)`; the hash of a set
      is given by the caller, the principal's by `String.hashCode`. */
  function HashCode<P>(p: AclUserPolicy<P>, rolesHash: set<string> -> int, permissionsHash: set<P> -> int): (h: int)
    ensures JavaHash.IsInt32(h)
  {
    JavaHash.ListHash([JavaHash.StringHash(p.principal), rolesHash(p.roles), permissionsHash(p.permissions)])
  }

  /** `equals` is structural equality, and equal policies hash alike. */
  lemma EqualsIsStructural<P>(a: AclUserPolicy<P>, b: AclUserPolicy<P>,
                              rolesHash: set<string> -> int, permissionsHash: set<P> -> int)
    ensures Equals(a, b) <==> a == b
    ensures Equals(a, b) ==> HashCode(a, rolesHash, permissionsHash) == HashCode(b, rolesHash, permissionsHash)
  {
  }

  /** Two successful constructions give equal policies exactly when their
      arguments agree, null permissions counting as empty ones. */
  lemma {:induction false} CreateEquality<P>(p1: string, r1: set<string>, s1: Option<set<P>>,
                                              p2: string, r2: set<string>, s2: Option<set<P>>)
    ensures Equals(Create(Some(p1), Some(r1), s1).value, Create(Some(p2), Some(r2), s2).value) <==>
      p1 == p2 && r1 == r2 && s1.GetOr({}) == s2.GetOr({})
  {
  }
}

=== FILE: any_qualifier.dfy ===
/** `AnyQualifier`: a qualifier built from a list of member qualifiers, whose
    filter keeps, for each member in turn, what that member keeps of the same
    candidate list. Members are values of any type `Q`; what a member does is
    given by the functions passed in (its own `filter`, `toString` and
    `hashCode`). */
module AnyQualifier {
  import JavaHash

  datatype AnyQualifier<Q> = AnyQualifier(qualifiers: seq<Q>)

  /** `filter`: the candidates are materialised once, and every member filters
      that same list; the outputs are concatenated in member order. */
  function Filter<Q, D>(any: AnyQualifier<Q>, memberFilter: (Q, seq<D>) -> seq<D>, candidates: seq<D>): (r: seq<D>)
    ensures any.qualifiers == [] ==> r == []
    decreases |any.qualifiers|
  {
    if any.qualifiers == [] then []
    else
      var qs := any.qualifiers;
      Filter(AnyQualifier(qs[..|qs| - 1]), memberFilter, candidates) + memberFilter(qs[|qs| - 1], candidates)
  }

  /** The sum of the sizes of every member's output. */
  function TotalLength<Q, D>(qs: seq<Q>, memberFilter: (Q, seq<D>) -> seq<D>, candidates: seq<D>): nat
    decreases |qs|
  {
    if qs == [] then 0 else TotalLength(qs[..|qs| - 1], memberFilter, candidates) + |memberFilter(qs[|qs| - 1], candidates)|
  }

  /** How many times the members keep `d`, summed over the members. */
  function TimesKept<Q, D(==)>(qs: seq<Q>, memberFilter: (Q, seq<D>) -> seq<D>, candidates: seq<D>, d: D): nat
    decreases |qs|
  {
    if qs == [] then 0
    else TimesKept(qs[..|qs| - 1], memberFilter, candidates, d) + multiset(memberFilter(qs[|qs| - 1], candidates))[d]
  }

  /** No deduplication: the output has as many elements as all member outputs
      together, and a descriptor appears once per time a member keeps it. */
  lemma {:induction false} FilterCounts<Q, D>(any: AnyQualifier<Q>, memberFilter: (Q, seq<D>) -> seq<D>,
                                              candidates: seq<D>, d: D)
    ensures |Filter(any, memberFilter, candidates)| == TotalLength(any.qualifiers, memberFilter, candidates)
    ensures multiset(Filter(any, memberFilter, candidates))[d] == TimesKept(any.qualifiers, memberFilter, candidates, d)
    decreases |any.qualifiers|
  {
    if any.qualifiers != [] {
      var qs := any.qualifiers;
      FilterCounts(AnyQualifier(qs[..|qs| - 1]), memberFilter, candidates, d);
    }
  }

  /** A descriptor is in the output exactly when some member keeps it. */
  lemma {:induction false} FilterMembership<Q, D>(any: AnyQualifier<Q>, memberFilter: (Q, seq<D>) -> seq<D>,
                                                  candidates: seq<D>, d: D)
    ensures d in Filter(any, memberFilter, candidates) <==>
      exists i :: 0 <= i < |any.qualifiers| && d in memberFilter(any.qualifiers[i], candidates)
    decreases |any.qualifiers|
  {
    if any.qualifiers != [] {
      var qs := any.qualifiers;
      var init := qs[..|qs| - 1];
      FilterMembership(AnyQualifier(init), memberFilter, candidates, d);
      if d in Filter(any, memberFilter, candidates) {
        if d !in memberFilter(qs[|qs| - 1], candidates) {
          var i :| 0 <= i < |init| && d in memberFilter(init[i], candidates);
          assert qs[i] == init[i];
        }
      } else {
        forall i | 0 <= i < |qs|
          ensures d !in memberFilter(qs[i], candidates)
        {
          if i < |init| { assert qs[i] == init[i]; }
        }
      }
    }
  }

  /** Each member's output appears as a block, in member order: the output for
      the members `qs + [q]` is the output for `qs` followed by `q`'s output. */
  lemma FilterAppendMember<Q, D>(qs: seq<Q>, q: Q, memberFilter: (Q, seq<D>) -> seq<D>, candidates: seq<D>)
    ensures Filter(AnyQualifier(qs + [q]), memberFilter, candidates)
         == Filter(AnyQualifier(qs), memberFilter, candidates) + memberFilter(q, candidates)
  {
    assert (qs + [q])[..|qs|] == qs;
  }

  /** `equals`: two AnyQualifiers are equal when their member lists are. */
  predicate Equals<Q(==)>(a: AnyQualifier<Q>, b: AnyQualifier<Q>) {
    a.qualifiers == b.qualifiers
  }

  /** What a per-member function gives for each member, in member order. */
  function MapMembers<Q, T>(qs: seq<Q>, f: Q -> T): (r: seq<T>)
    ensures |r| == |qs| && forall i :: 0 <= i < |qs| ==> r[i] == f(qs[i])
  {
    seq(|qs|, i requires 0 <= i < |qs| => f(qs[i]))
  }

  /** `hashCode`: `Objects.hash(qualifiers)`, that is `31 + qualifiers.hashCode()`
      in 32-bit arithmetic, the list hash folding the members' hashes. */
  function HashCode<Q>(any: AnyQualifier<Q>, memberHash: Q -> int): (h: int)
    ensures JavaHash.IsInt32(h)
    ensures var hs := MapMembers(any.qualifiers, memberHash);
      h == JavaHash.Wrap(31 + JavaHash.ListHash(hs))
  {
    var hs := MapMembers(any.qualifiers, memberHash);
    assert [JavaHash.ListHash(hs)][..0] == [];
    JavaHash.ListHash([JavaHash.ListHash(hs)])
  }

  /** Equality is structural, and equal qualifiers hash alike. */
  lemma EqualsIsStructural<Q>(a: AnyQualifier<Q>, b: AnyQualifier<Q>, memberHash: Q -> int)
    ensures Equals(a, b) <==> a == b
    ensures Equals(a, b) ==> HashCode(a, memberHash) == HashCode(b, memberHash)
  {
  }

  /** `String.join(sep, parts)`. */
  function Join(parts: seq<string>, sep: string): (r: string)
    ensures parts == [] ==> r == []
    ensures |parts| == 1 ==> r == parts[0]
    decreases |parts|
  {
    if parts == [] then []
    else if |parts| == 1 then parts[0]
    else Join(parts[..|parts| - 1], sep) + sep + parts[|parts| - 1]
  }

  function SumLengths(parts: seq<string>): nat
    decreases |parts|
  {
    if parts == [] then 0 else SumLengths(parts[..|parts| - 1]) + |parts[|parts| - 1]|
  }

  /** The joined string holds every part and one separator between neighbours. */
  lemma {:induction false} JoinLength(parts: seq<string>, sep: string)
    requires parts != []
    ensures |Join(parts, sep)| == SumLengths(parts) + (|parts| - 1) * |sep|
    decreases |parts|
  {
    if |parts| > 1 {
      JoinLength(parts[..|parts| - 1], sep);
    } else {
      assert parts[..0] == [];
    }
  }

  /** Joining two non-empty runs of parts is joining each run, with one
      separator between them: the parts keep their order. */
  lemma {:induction false} JoinConcat(a: seq<string>, b: seq<string>, sep: string)
    requires a != [] && b != []
    ensures Join(a + b, sep) == Join(a, sep) + sep + Join(b, sep)
    decreases |b|
  {
    var ab := a + b;
    var init := b[..|b| - 1];
    var last := b[|b| - 1];
    assert ab[..|ab| - 1] == a + init;
    assert ab[|ab| - 1] == last;
    assert Join(ab, sep) == Join(a + init, sep) + sep + last;
    if |b| == 1 {
      assert a + init == a;
    } else {
      JoinConcat(a, init, sep);
      assert Join(b, sep) == Join(init, sep) + sep + last;
    }
  }

  /** `toString`: the members' strings joined with " and ". */
  function ToString<Q>(any: AnyQualifier<Q>, memberString: Q -> string): (s: string)
    ensures any.qualifiers == [] ==> s == ""
    ensures |any.qualifiers| == 1 ==> s == memberString(any.qualifiers[0])
  {
    Join(MapMembers(any.qualifiers, memberString), " and ")
  }

  /** A further member appends " and " and its own text: with the cases of
      none and one member, this fixes the text for any number of members. */
  lemma ToStringAppendMember<Q>(qs: seq<Q>, q: Q, memberString: Q -> string)
    requires qs != []
    ensures ToString(AnyQualifier(qs + [q]), memberString) ==
      ToString(AnyQualifier(qs), memberString) + " and " + memberString(q)
  {
    var parts := MapMembers(qs, memberString);
    assert MapMembers(qs + [q], memberString) == parts + [memberString(q)];
    JoinConcat(parts, [memberString(q)], " and ");
    assert Join([memberString(q)], " and ") == memberString(q);
  }
}

=== FILE: change.dfy ===
/** The change types of a reconciliation and the rule that folds the types of
    several field-level changes into one resource-level type
    (`Change.computeChangeTypeFrom`). */
module Change {
  import opened Wrappers

  /** `ChangeType`: the classification of one diffed resource or field. */
  datatype ChangeType = ADD | DELETE | UPDATE | NONE

  /** The combiner of the reduction: NONE only when both sides are NONE. */
  function Combine(t1: ChangeType, t2: ChangeType): (t: ChangeType)
    ensures t == NONE <==> t1 == NONE && t2 == NONE
    ensures t != ADD && t != DELETE
  {
    if t1 == NONE && t2 == NONE then NONE else UPDATE
  }

  predicate AllNone(changes: seq<ChangeType>) {
    forall i :: 0 <= i < |changes| ==> changes[i] == NONE
  }

  /** `computeChangeTypeFrom`: a sequential left fold of `Combine` over the types,
      seeded with NONE. NONE is not an identity of `Combine` (`Combine(NONE, ADD)`
      is UPDATE), so the seed is not the identity `Stream.reduce` asks for; the
      stream is sequential, and `ReduceConcat` shows that any split agrees. */
  function ComputeChangeTypeFrom(changes: seq<ChangeType>): (r: ChangeType)
    ensures r == NONE || r == UPDATE
    ensures r == NONE <==> AllNone(changes)
    decreases |changes|
  {
    if changes == [] then NONE
    else Combine(ComputeChangeTypeFrom(changes[..|changes| - 1]), changes[|changes| - 1])
  }

  lemma CombineCommutative(t1: ChangeType, t2: ChangeType)
    ensures Combine(t1, t2) == Combine(t2, t1)
  {
  }

  lemma CombineAssociative(t1: ChangeType, t2: ChangeType, t3: ChangeType)
    ensures Combine(Combine(t1, t2), t3) == Combine(t1, Combine(t2, t3))
  {
  }

  /** Seeding with NONE maps one type `t` to NONE if `t` is NONE and to UPDATE
      otherwise, on whichever side the seed stands. */
  lemma CombineIdentity(t: ChangeType)
    ensures Combine(NONE, t) == Combine(t, NONE)
    ensures Combine(NONE, t) == (if t == NONE then NONE else UPDATE)
  {
  }

  /** A reduction never escalates to ADD or DELETE: even all-ADD inputs give UPDATE. */
  lemma {:induction false} UniformAddsReduceToUpdate(changes: seq<ChangeType>, t: ChangeType)
    requires changes != []
    requires t == ADD || t == DELETE
    requires forall i :: 0 <= i < |changes| ==> changes[i] == t
    ensures ComputeChangeTypeFrom(changes) == UPDATE
  {
    assert changes[0] != NONE;
  }

  /** Splitting the input anywhere and combining the two partial reductions gives
      the same type, so a parallel stream reduction agrees with the sequential one. */
  lemma {:induction false} ReduceConcat(a: seq<ChangeType>, b: seq<ChangeType>)
    ensures ComputeChangeTypeFrom(a + b) == Combine(ComputeChangeTypeFrom(a), ComputeChangeTypeFrom(b))
  {
    if AllNone(a + b) {
      assert forall i :: 0 <= i < |a| ==> a[i] == (a + b)[i];
      assert forall i :: 0 <= i < |b| ==> b[i] == (a + b)[|a| + i];
    } else {
      var k :| 0 <= k < |a + b| && (a + b)[k] != NONE;
      if k < |a| {
        assert a[k] != NONE;
      } else {
        assert b[k - |a|] != NONE;
      }
    }
  }

  /** A non-NONE type in `a` is also in any rearrangement `b` of `a`. */
  lemma NoneFreeTransfers(a: seq<ChangeType>, b: seq<ChangeType>)
    requires multiset(a) == multiset(b)
    requires AllNone(b)
    ensures AllNone(a)
  {
    forall k | 0 <= k < |a|
      ensures a[k] == NONE
    {
      assert a[k] in multiset(b);
    }
  }

  /** The result does not depend on the order of the given changes. */
  lemma {:induction false} ReduceOrderIndependent(a: seq<ChangeType>, b: seq<ChangeType>)
    requires multiset(a) == multiset(b)
    ensures ComputeChangeTypeFrom(a) == ComputeChangeTypeFrom(b)
  {
    if AllNone(a) { NoneFreeTransfers(b, a); }
    if AllNone(b) { NoneFreeTransfers(a, b); }
  }

  /** `ValueChange`: the before/after pair of one field or resource, with its type. */
  datatype ValueChange<V> = ValueChange(before: Option<V>, after: Option<V>, changeType: ChangeType)

  /** The type of a before/after pair: a missing `before` is an addition, a missing
      `after` a deletion, equal values no change, different values an update. */
  function ValueChangeWith<V(==)>(before: Option<V>, after: Option<V>): (c: ValueChange<V>)
    ensures c.before == before && c.after == after
    ensures c.changeType == ADD <==> before.None? && after.Some?
    ensures c.changeType == DELETE <==> before.Some? && after.None?
    ensures c.changeType == NONE <==> before == after
    ensures c.changeType == UPDATE <==> before.Some? && after.Some? && before != after
  {
    var t :=
      if before.None? && after.Some? then ADD
      else if before.Some? && after.None? then DELETE
      else if before == after then NONE
      else UPDATE;
    ValueChange(before, after, t)
  }
}

=== FILE: field_selector.dfy ===
/** `FieldSelector` on the `metadata.name` field with the IN and NOTIN operators:
    a resource is selected by IN exactly when its name is one of the values,
    and by NOTIN exactly when it is not. */
module FieldSelector {
  import opened Resource

  datatype ExpressionOperator = IN | NOTIN

  /** `SelectorExpression(key, operator, values)`. */
  datatype SelectorExpression = SelectorExpression(key: string, operator: ExpressionOperator, values: seq<string>)

  const MetadataName: string := "metadata.name"

  /** The value of the selected field: for `metadata.name`, the resource's name. */
  function FieldValue(key: string, resource: ObjectMeta): (v: string)
    requires key == MetadataName
  {
    resource.name
  }

  /** `FieldSelector.apply`: membership of the field value in the expression's values. */
  function Apply(expression: SelectorExpression, resource: ObjectMeta): (selected: bool)
    requires expression.key == MetadataName
    ensures expression.operator == IN ==> (selected <==> resource.name in expression.values)
    ensures expression.operator == NOTIN ==> (selected <==> resource.name !in expression.values)
  {
    var value := FieldValue(expression.key, resource);
    match expression.operator
    case IN => value in expression.values
    case NOTIN => value !in expression.values
  }

  /** For the same key, values and resource, IN and NOTIN give opposite answers. */
  lemma NotInIsComplement(key: string, values: seq<string>, resource: ObjectMeta)
    requires key == MetadataName
    ensures Apply(SelectorExpression(key, NOTIN, values), resource) == !Apply(SelectorExpression(key, IN, values), resource)
  {
  }

  /** A `metadata.name` expression looks at the name alone: labels and annotations
      do not change the answer. */
  lemma NameAloneDecides(expression: SelectorExpression, r1: ObjectMeta, r2: ObjectMeta)
    requires expression.key == MetadataName
    requires r1.name == r2.name
    ensures Apply(expression, r1) == Apply(expression, r2)
  {
  }

  /** The test resource: named "test-resource", with one label and one annotation. */
  function TestResource(): ObjectMeta {
    ObjectMeta("test-resource", map["a-label.key" := "value"], map["an-annotation.key" := "value"])
  }

  /** IN ["test-resource"] selects the test resource; NOTIN with the same list rejects it. */
  lemma SelectorScenario()
    ensures Apply(SelectorExpression(MetadataName, IN, ["test-resource"]), TestResource())
    ensures !Apply(SelectorExpression(MetadataName, NOTIN, ["test-resource"]), TestResource())
  {
  }
}

=== FILE: has_metadata_acceptable.dfy ===
/** `HasMetadataAcceptable`: an extension accepts a resource, or a resource
    type, when one of the `@AcceptResource` annotations on its class derives a
    resource type that accepts it. The reflective lookup of the annotations is
    the input sequence `accepts`; `ResourceType.canAccept` is passed in. */
module HasMetadataAcceptable {

  /** `ResourceType`: a kind and an API version, compared structurally. */
  datatype ResourceType = ResourceType(kind: string, apiVersion: string)

  /** The `type` element of an annotation: either the `HasMetadata` interface
      itself (the default), or a concrete resource class whose `@Kind` and
      `@ApiVersion` annotations give its kind and version. */
  datatype ResourceClass = HasMetadataInterface | ResourceModelClass(classKind: string, classApiVersion: string)

  /** `@AcceptResource(type, kind, version)`. */
  datatype AcceptResource = AcceptResource(resourceClass: ResourceClass, kind: string, version: string)

  /** The private derivation: a concrete class gives its own kind and version;
      `HasMetadata` defers to the annotation's `kind` and `version`. */
  function ResourceTypeOf(accept: AcceptResource): ResourceType {
    match accept.resourceClass
    case ResourceModelClass(k, v) => ResourceType(k, v)
    case HasMetadataInterface => ResourceType(accept.kind, accept.version)
  }

  /** With a concrete class, the annotation's own `kind`/`version` elements are ignored. */
  lemma ConcreteClassWins(c: ResourceClass, kind1: string, version1: string, kind2: string, version2: string)
    requires c.ResourceModelClass?
    ensures ResourceTypeOf(AcceptResource(c, kind1, version1)) == ResourceTypeOf(AcceptResource(c, kind2, version2))
    ensures ResourceTypeOf(AcceptResource(c, kind1, version1)) == ResourceType(c.classKind, c.classApiVersion)
  {
  }

  /** With `HasMetadata` as type, the explicit `kind` and `version` are used. */
  lemma ExplicitKindAndVersion(kind: string, version: string)
    ensures ResourceTypeOf(AcceptResource(HasMetadataInterface, kind, version)) == ResourceType(kind, version)
  {
  }

  /** The private `canAccept`: `anyMatch` of the predicate over the derived types. */
  function CanAccept(accepts: seq<AcceptResource>, predicate_: ResourceType -> bool): (r: bool)
    ensures r <==> exists i :: 0 <= i < |accepts| && predicate_(ResourceTypeOf(accepts[i]))
    ensures accepts == [] ==> !r
    decreases |accepts|
  {
    if accepts == [] then false
    else predicate_(ResourceTypeOf(accepts[0])) || CanAccept(accepts[1..], predicate_)
  }

  /** `canAccept(HasMetadata resource)`: `typeAcceptsResource` is `ResourceType.canAccept(resource)`. */
  function CanAcceptResource<R>(accepts: seq<AcceptResource>, resource: R,
                                typeAcceptsResource: (ResourceType, R) -> bool): (r: bool)
    ensures r <==> exists i :: 0 <= i < |accepts| && typeAcceptsResource(ResourceTypeOf(accepts[i]), resource)
  {
    CanAccept(accepts, t => typeAcceptsResource(t, resource))
  }

  /** `canAccept(ResourceType type)`: `typeAcceptsType` is `ResourceType.canAccept(type)`. */
  function CanAcceptType(accepts: seq<AcceptResource>, resourceType: ResourceType,
                         typeAcceptsType: (ResourceType, ResourceType) -> bool): (r: bool)
    ensures r <==> exists i :: 0 <= i < |accepts| && typeAcceptsType(ResourceTypeOf(accepts[i]), resourceType)
  {
    CanAccept(accepts, t => typeAcceptsType(t, resourceType))
  }

  /** Adding an annotation, anywhere in the list, never withdraws acceptance. */
  lemma {:induction false} AddingAnnotationKeepsAcceptance(accepts: seq<AcceptResource>, extra: AcceptResource,
                                                          pos: nat, predicate_: ResourceType -> bool)
    requires pos <= |accepts|
    requires CanAccept(accepts, predicate_)
    ensures CanAccept(accepts[..pos] + [extra] + accepts[pos..], predicate_)
  {
    var longer := accepts[..pos] + [extra] + accepts[pos..];
    var i :| 0 <= i < |accepts| && predicate_(ResourceTypeOf(accepts[i]));
    if i < pos {
      assert longer[i] == accepts[i];
    } else {
      assert longer[i + 1] == accepts[i];
    }
  }
}

=== FILE: java_hash.dfy ===
/** Java's 32-bit `int` arithmetic as used by `hashCode` implementations:
    every sum and product wraps around modulo 2^32 into [-2^31, 2^31). */
module JavaHash {

  const IntMin: int := -0x8000_0000
  const IntModulus: int := 0x1_0000_0000

  predicate IsInt32(x: int) {
    IntMin <= x < IntMin + IntModulus
  }

  /** Two's-complement truncation of an unbounded integer to a Java `int`. */
  function Wrap(x: int): (r: int)
    ensures IsInt32(r)
    ensures (r - x) % IntModulus == 0
    ensures IsInt32(x) ==> r == x
  {
    (x - IntMin) % IntModulus + IntMin
  }

  /** One step of the polynomial hash used by `List.hashCode`, `Arrays.hashCode`
      and `String.hashCode`: `31 * h + e`, in 32-bit arithmetic. */
  function Step(h: int, e: int): int {
    Wrap(31 * h + e)
  }

  /** `31 * (... (31 * seed + hs[0]) ...) + hs[n-1]`, wrapped at every step. */
  function Fold(seed: int, hs: seq<int>): (r: int)
    requires IsInt32(seed)
    ensures IsInt32(r)
    ensures hs == [] ==> r == seed
    decreases |hs|
  {
    if hs == [] then seed else Step(Fold(seed, hs[..|hs| - 1]), hs[|hs| - 1])
  }

  /** `List.hashCode` (and `Arrays.hashCode`, hence `Objects.hash`) of a list whose
      elements hash to `hs`: the fold starts from 1. */
  function ListHash(hs: seq<int>): (r: int)
    ensures IsInt32(r)
  {
    Fold(1, hs)
  }

  /** `String.hashCode`: the same fold over the characters, starting from 0. A Dafny
      `char` is a Unicode scalar value while Java folds UTF-16 code units, so the two
      agree on strings of Basic Multilingual Plane characters only. */
  function StringHash(s: string): (r: int)
    ensures IsInt32(r)
    ensures s == [] ==> r == 0
  {
    Fold(0, seq(|s|, i requires 0 <= i < |s| => s[i] as int))
  }

  /** Appending one element hashes as one more step, so hashes can be computed
      incrementally from the left. */
  lemma {:induction false} FoldAppend(seed: int, hs: seq<int>, e: int)
    requires IsInt32(seed)
    ensures Fold(seed, hs + [e]) == Step(Fold(seed, hs), e)
  {
    assert (hs + [e])[..|hs|] == hs;
  }
}

=== FILE: kafka_acl_entry_change_computer.dfy ===
/** The change computer for Aiven Kafka topic ACL entries
    (`KafkaAclEntryChangeComputer`): entries are matched on their
    (username, topic, permission) triple, classified as ADD, DELETE or NONE,
    and reported through the Aiven API value of the entry. */
module KafkaAclEntryChangeComputer {
  import opened Wrappers
  import opened Change
  import Resource

  /** Aiven's topic ACL permissions. */
  datatype Permission = ADMIN | READ | READWRITE | WRITE

  /** `V1KafkaTopicAclEntry`: the resource, with the annotations of its metadata
      and the three fields of its spec. */
  datatype V1KafkaTopicAclEntry = V1KafkaTopicAclEntry(
    annotations: map<string, string>,
    username: string,
    topic: string,
    permission: Permission)

  /** The record `Key`: what identifies an entry when matching actual and desired state. */
  datatype Key = Key(username: string, topic: string, permission: Permission)

  /** `KeyMapper.apply`. */
  function KeyOf(o: V1KafkaTopicAclEntry): Key {
    Key(o.username, o.topic, o.permission)
  }

  /** Two entries match exactly when their triples agree; the annotations play no part. */
  lemma SameKeyIffSameTriple(a: V1KafkaTopicAclEntry, b: V1KafkaTopicAclEntry)
    ensures KeyOf(a) == KeyOf(b) <==>
      a.username == b.username && a.topic == b.topic && a.permission == b.permission
  {
  }

  /** `getChangeType`: a missing `before` is ADD whatever `after` is; a missing
      `after` is DELETE; otherwise DELETE only when `after` asks for deletion. */
  function GetChangeType(before: Option<V1KafkaTopicAclEntry>, after: Option<V1KafkaTopicAclEntry>): (t: ChangeType)
    ensures t != UPDATE
    ensures before.None? ==> t == ADD
    ensures before.Some? && after.None? ==> t == DELETE
    ensures before.Some? && after.Some? ==>
      (t == DELETE <==> Resource.IsAnnotatedWithDelete(after.value.annotations))
    ensures t == NONE <==>
      before.Some? && after.Some? && !Resource.IsAnnotatedWithDelete(after.value.annotations)
  {
    if before.None? then ADD
    else if after.None? then DELETE
    else if Resource.IsAnnotatedWithDelete(after.value.annotations) then DELETE
    else NONE
  }

  /** The only failure of the value mapper: `IllegalArgumentException("both arguments are null")`. */
  datatype ValueMapperError = BothArgumentsNull

  /** `ValueMapper.apply`: maps `after` through the adapter only when `before` is
      null, and `before` whenever it is present. `adapt` stands for
      `KafkaAclEntryAdapter.map`. */
  function ValueMapper<V>(before: Option<V1KafkaTopicAclEntry>, after: Option<V1KafkaTopicAclEntry>,
                          adapt: V1KafkaTopicAclEntry -> V): (r: Result<V, ValueMapperError>)
    ensures r.Failure? <==> before.None? && after.None?
    ensures before.Some? ==> r == Success(adapt(before.value))
    ensures before.None? && after.Some? ==> r == Success(adapt(after.value))
  {
    if before.None? && after.Some? then Success(adapt(after.value))
    else if before.Some? then Success(adapt(before.value))
    else Failure(BothArgumentsNull)
  }

  /** One change of the computed delta: the key, its classification and the
      mapped value. */
  datatype AclChange<V> = AclChange(key: Key, changeType: ChangeType, value: V)

  /** Indexing one state by key; two entries with the same key make the state
      malformed. */
  datatype IndexError = DuplicateKey(key: Key)

  predicate HasDuplicateKey(entries: seq<V1KafkaTopicAclEntry>) {
    exists i, j :: 0 <= i < j < |entries| && KeyOf(entries[i]) == KeyOf(entries[j])
  }

  /** Duplicates among the first n - 1 entries, or between the last entry and an
      earlier one, are exactly the duplicates of all n entries. */
  lemma DuplicateSplit(entries: seq<V1KafkaTopicAclEntry>)
    requires entries != []
    ensures HasDuplicateKey(entries) <==>
      HasDuplicateKey(entries[..|entries| - 1]) ||
      exists e :: e in entries[..|entries| - 1] && KeyOf(e) == KeyOf(entries[|entries| - 1])
  {
    var init := entries[..|entries| - 1];
    var last := entries[|entries| - 1];
    if HasDuplicateKey(entries) {
      var i, j :| 0 <= i < j < |entries| && KeyOf(entries[i]) == KeyOf(entries[j]);
      if j < |entries| - 1 {
        assert init[i] == entries[i] && init[j] == entries[j];
      } else {
        assert init[i] in init;
      }
    }
    if HasDuplicateKey(init) {
      var i, j :| 0 <= i < j < |init| && KeyOf(init[i]) == KeyOf(init[j]);
      assert entries[i] == init[i] && entries[j] == init[j];
    }
    if exists e :: e in init && KeyOf(e) == KeyOf(last) {
      var e :| e in init && KeyOf(e) == KeyOf(last);
      var i :| 0 <= i < |init| && init[i] == e;
      assert entries[i] == e;
    }
  }

  /** Indexes one state by `KeyOf`, failing on the first key seen twice. */
  function IndexByKey(entries: seq<V1KafkaTopicAclEntry>): (r: Result<map<Key, V1KafkaTopicAclEntry>, IndexError>)
    ensures r.Failure? <==> HasDuplicateKey(entries)
    ensures r.Success? ==> forall e :: e in entries ==> KeyOf(e) in r.value && r.value[KeyOf(e)] == e
    ensures r.Success? ==> forall k :: k in r.value ==> r.value[k] in entries && KeyOf(r.value[k]) == k
    decreases |entries|
  {
    if entries == [] then Success(map[])
    else
      var init := entries[..|entries| - 1];
      var last := entries[|entries| - 1];
      DuplicateSplit(entries);
      assert entries == init + [last];
      match IndexByKey(init)
      case Failure(err) => Failure(err)
      case Success(m) =>
        if KeyOf(last) in m then
          Failure(DuplicateKey(KeyOf(last)))
        else
          assert forall e :: e in init ==> KeyOf(e) != KeyOf(last);
          Success(m[KeyOf(last) := last])
  }

  /** The value of one change: the value mapper never fails here, since at least
      one side is present. */
  function MappedValue<V>(before: Option<V1KafkaTopicAclEntry>, after: Option<V1KafkaTopicAclEntry>,
                          adapt: V1KafkaTopicAclEntry -> V): (v: V)
    requires before.Some? || after.Some?
    ensures v == adapt(if before.Some? then before.value else after.value)
  {
    var r := ValueMapper(before, after, adapt);
    r.value
  }

  /** The delta between the indexed actual and desired states: one change per
      desired key; one DELETE per actual-only key when orphans are deleted. */
  function ComputeChanges<V>(actual: map<Key, V1KafkaTopicAclEntry>, desired: map<Key, V1KafkaTopicAclEntry>,
                             deleteOrphans: bool, adapt: V1KafkaTopicAclEntry -> V): (r: map<Key, AclChange<V>>)
    ensures r.Keys == desired.Keys + (if deleteOrphans then actual.Keys else {})
    ensures forall k :: k in r ==> r[k].key == k && r[k].changeType != UPDATE
    ensures forall k :: k in desired ==>
      r[k].changeType == GetChangeType(Get(actual, k), Some(desired[k]))
    ensures forall k :: k in r && k !in desired ==> r[k].changeType == DELETE && r[k].value == adapt(actual[k])
    ensures forall k :: k in r ==> r[k].value == adapt(if k in actual then actual[k] else desired[k])
  {
    var keys := desired.Keys + (if deleteOrphans then actual.Keys else {});
    map k | k in keys ::
      var before := Get(actual, k);
      var after := Get(desired, k);
      AclChange(k, GetChangeType(before, after), MappedValue(before, after, adapt))
  }

  /** Matching is by key only: with orphan deletion off, an entry present only in
      the actual state never shows up in the delta. */
  lemma OrphansKeptWithoutDeletion<V>(actual: map<Key, V1KafkaTopicAclEntry>, desired: map<Key, V1KafkaTopicAclEntry>,
                                      adapt: V1KafkaTopicAclEntry -> V, k: Key)
    requires k in actual && k !in desired
    ensures k !in ComputeChanges(actual, desired, false, adapt)
    ensures ComputeChanges(actual, desired, true, adapt)[k].changeType == DELETE
  {
  }
}

=== FILE: kafka_topic_min_replicas_transformation.dfy ===
/** `KafkaTopicMinReplicasTransformation`: raises a desired topic's replication
    factor to the configured minimum. `init` stores the minimum; `transform`
    builds a new resource. */
module KafkaTopicMinReplicasTransformation {
  import opened Wrappers
  import opened Resource
  import opened KafkaTopics

  class Transformation {
    /** The configured `MIN_REPLICATION_FACTOR_CONFIG`. */
    var minReplicationFactor: int

    /** The no-argument constructor: the `int` field keeps Java's default 0 until `init`. */
    constructor ()
      ensures minReplicationFactor == 0
    {
      minReplicationFactor := 0;
    }

    /** `init(context)`: stores the minimum read from the application configuration. */
    method Init(configuredMin: int)
      modifies this
      ensures minReplicationFactor == configuredMin
    {
      minReplicationFactor := configuredMin;
    }

    /** `transform`: always present; replicas below the minimum become the
        minimum, others are kept; nothing else changes. */
    function Transform(resource: V1KafkaTopic): (r: Option<V1KafkaTopic>)
      reads this
      ensures r.Some?
      ensures r.value.spec.replicas >= minReplicationFactor
      ensures r.value.spec.replicas >= resource.spec.replicas
      ensures resource.spec.replicas >= minReplicationFactor ==> r.value == resource
      ensures resource.spec.replicas < minReplicationFactor ==> r.value.spec.replicas == minReplicationFactor
      ensures r.value.metadata == resource.metadata && r.value.spec.partitions == resource.spec.partitions
      ensures r.value.spec.configs == resource.spec.configs
    {
      if resource.spec.replicas < minReplicationFactor
      then Some(resource.(spec := resource.spec.(replicas := minReplicationFactor)))
      else Some(resource)
    }
  }

  /** Transforming twice gives the same result as transforming once. */
  lemma TransformIdempotent(t: Transformation, resource: V1KafkaTopic)
    ensures t.Transform(t.Transform(resource).value) == t.Transform(resource)
  {
  }

  /** The transformation test replayed: after `init` with a minimum of 3, six
      replicas stay six and one replica becomes three. */
  method MinReplicasScenario()
  {
    var t := new Transformation();
    t.Init(3);
    var big := t.Transform(V1KafkaTopic(ObjectMeta("", map[], map[]), V1KafkaTopicSpec(0, 6, map[])));
    assert big.Some? && big.value.spec.replicas == 6;
    var small := t.Transform(V1KafkaTopic(ObjectMeta("", map[], map[]), V1KafkaTopicSpec(0, 1, map[])));
    assert small.Some? && small.value.spec.replicas == 3;
  }
}

=== FILE: kafka_topics.dfy ===
/** The Kafka topic resource shared by the topic diff, the `topics` command and
    the topic transformations, with the sentinels of `KafkaTopics`. */
module KafkaTopics {
  import opened Resource

  /** `KafkaTopics.NO_NUM_PARTITIONS`: the desired state leaves the partition count alone. */
  const NoNumPartitions: int := -1
  /** `KafkaTopics.NO_REPLICATION_FACTOR`: the desired state leaves the replication factor alone. */
  const NoReplicationFactor: int := -1

  /** `V1KafkaTopicSpec`: partition count, replication factor and configuration entries. */
  datatype V1KafkaTopicSpec = V1KafkaTopicSpec(partitions: int, replicas: int, configs: map<string, string>)

  /** `V1KafkaTopic`: metadata (name, labels, annotations) and spec. */
  datatype V1KafkaTopic = V1KafkaTopic(metadata: ObjectMeta, spec: V1KafkaTopicSpec)
}

=== FILE: resource.dfy ===
/** The metadata every reconcilable resource carries, and the reserved
    annotation that marks a resource for deletion. */
module Resource {

  /** `ObjectMeta`: a resource's name, labels and annotations. */
  datatype ObjectMeta = ObjectMeta(name: string, labels: map<string, string>, annotations: map<string, string>)

  /** `CoreAnnotations.JIKKOU_IO_DELETE`, the annotation that asks for deletion. */
  const JikkouIoDelete: string := "jikkou.io/delete"

  /** `isAnnotatedWithDelete`: the delete annotation is present and set to true. */
  predicate IsAnnotatedWithDelete(annotations: map<string, string>) {
    JikkouIoDelete in annotations && annotations[JikkouIoDelete] == "true"
  }
}

=== FILE: topic_change_computer.dfy ===
/** The change computer for Kafka topics (`TopicChangeComputer.computeChanges`):
    topics are matched by name, and each pair is diffed on its partition count,
    its replication factor and, entry by entry, its configuration. */
module TopicChangeComputer {
  import opened Wrappers
  import opened Change
  import Resource
  import opened KafkaTopics

  /** `TopicChange`: the topic-level operation and the field-level changes. */
  datatype TopicChange = TopicChange(
    name: string,
    operation: ChangeType,
    partitions: ValueChange<int>,
    replicas: ValueChange<int>,
    configs: map<string, ValueChange<string>>)

  /** `hasConfigEntryChanges`: some config entry actually changes. */
  predicate HasConfigEntryChanges(c: TopicChange) {
    exists k :: k in c.configs && c.configs[k].changeType != NONE
  }

  /** The config-entry diff: every desired entry is compared with the actual one;
      actual-only entries are deleted only when orphans are deleted. */
  function ComputeConfigChanges(before: map<string, string>, after: map<string, string>,
                                deleteOrphans: bool): (r: map<string, ValueChange<string>>)
    ensures r.Keys == after.Keys + (if deleteOrphans then before.Keys else {})
    ensures forall k :: k in after && k in before ==>
      r[k].before == Some(before[k]) && r[k].after == Some(after[k]) &&
      r[k].changeType == (if before[k] == after[k] then NONE else UPDATE)
    ensures forall k :: k in after && k !in before ==>
      r[k].before == None && r[k].after == Some(after[k]) && r[k].changeType == ADD
    ensures forall k :: k in r && k !in after ==>
      r[k].before == Some(before[k]) && r[k].after == None && r[k].changeType == DELETE
  {
    var keys := after.Keys + (if deleteOrphans then before.Keys else {});
    map k | k in keys :: ValueChangeWith(Get(before, k), Get(after, k))
  }

  predicate AllEntriesNone(configs: map<string, ValueChange<string>>) {
    forall k :: k in configs ==> configs[k].changeType == NONE
  }

  /** The distinct types of the entry changes, each once, as the reduction's input. */
  function ConfigChangeTypes(configs: map<string, ValueChange<string>>): (ts: seq<ChangeType>)
    ensures AllNone(ts) <==> AllEntriesNone(configs)
  {
    var present := set k | k in configs :: configs[k].changeType;
    var ts := (if ADD in present then [ADD] else []) + (if DELETE in present then [DELETE] else [])
            + (if UPDATE in present then [UPDATE] else []);
    assert AllNone(ts) <==> ADD !in present && DELETE !in present && UPDATE !in present by {
      if ADD in present { assert ts[0] == ADD; }
      else if DELETE in present { assert ts[0] == DELETE; }
      else if UPDATE in present { assert ts[0] == UPDATE; }
    }
    assert !AllEntriesNone(configs) ==> exists t :: t in present && t != NONE by {
      if !AllEntriesNone(configs) {
        var k :| k in configs && configs[k].changeType != NONE;
        assert configs[k].changeType in present;
      }
    }
    ts
  }

  /** A new topic: everything is added. */
  function AddChange(name: string, after: V1KafkaTopic): (c: TopicChange)
    ensures c.name == name && c.operation == ADD
    ensures c.partitions.before == None && c.partitions.after == Some(after.spec.partitions)
    ensures c.replicas.before == None && c.replicas.after == Some(after.spec.replicas)
    ensures c.configs.Keys == after.spec.configs.Keys
    ensures forall k :: k in c.configs ==>
      c.configs[k].changeType == ADD && c.configs[k].before == None &&
      c.configs[k].after == Some(after.spec.configs[k])
  {
    TopicChange(name, ADD, ValueChangeWith(None, Some(after.spec.partitions)),
                ValueChangeWith(None, Some(after.spec.replicas)),
                ComputeConfigChanges(map[], after.spec.configs, false))
  }

  /** A topic to delete: reported with its current values and no entry changes. */
  function DeleteChange(name: string, before: V1KafkaTopic): (c: TopicChange)
    ensures c.name == name && c.operation == DELETE
    ensures c.partitions.before == Some(before.spec.partitions) && c.partitions.after == None
    ensures c.replicas.before == Some(before.spec.replicas) && c.replicas.after == None
    ensures !HasConfigEntryChanges(c)
  {
    TopicChange(name, DELETE, ValueChangeWith(Some(before.spec.partitions), None),
                ValueChangeWith(Some(before.spec.replicas), None), map[])
  }

  /** A numeric field of a topic present on both sides: the desired sentinel
      leaves it alone, otherwise the actual and desired values are compared. */
  function FieldChange(before: int, after: int, sentinel: int): (c: ValueChange<int>)
    ensures after == sentinel ==> c.changeType == NONE && c.before == c.after == Some(before)
    ensures after != sentinel ==>
      c.before == Some(before) && c.after == Some(after) &&
      c.changeType == (if before == after then NONE else UPDATE)
  {
    ValueChangeWith(Some(before), Some(if after == sentinel then before else after))
  }

  /** The reduction over the field types of a topic is NONE exactly when every
      field and every config entry is NONE. */
  lemma ReduceTopicFields(p: ChangeType, r: ChangeType, configs: map<string, ValueChange<string>>)
    ensures var t := ComputeChangeTypeFrom([p, r] + ConfigChangeTypes(configs));
      (t == NONE || t == UPDATE) && (t == NONE <==> p == NONE && r == NONE && AllEntriesNone(configs))
  {
    var cs := ConfigChangeTypes(configs);
    var types := [p, r] + cs;
    assert types[0] == p && types[1] == r;
    assert forall i :: 0 <= i < |cs| ==> types[i + 2] == cs[i];
    if AllNone(types) {
      assert AllNone(cs);
    }
  }

  lemma HasConfigEntryChangesIff(c: TopicChange)
    ensures HasConfigEntryChanges(c) <==> !AllEntriesNone(c.configs)
  {
  }

  /** A topic present on both sides: a sentinel in the desired partitions or
      replicas makes that field NONE; the topic's type is the reduction of its
      field types. */
  function UpdateChange(name: string, before: V1KafkaTopic, after: V1KafkaTopic, deleteOrphans: bool): (c: TopicChange)
    ensures c.name == name
    ensures c.operation == NONE || c.operation == UPDATE
    ensures c.operation == NONE <==>
      c.partitions.changeType == NONE && c.replicas.changeType == NONE && !HasConfigEntryChanges(c)
    ensures c.partitions == FieldChange(before.spec.partitions, after.spec.partitions, NoNumPartitions)
    ensures c.replicas == FieldChange(before.spec.replicas, after.spec.replicas, NoReplicationFactor)
    ensures c.configs == ComputeConfigChanges(before.spec.configs, after.spec.configs, deleteOrphans)
  {
    var partitions := FieldChange(before.spec.partitions, after.spec.partitions, NoNumPartitions);
    var replicas := FieldChange(before.spec.replicas, after.spec.replicas, NoReplicationFactor);
    var configs := ComputeConfigChanges(before.spec.configs, after.spec.configs, deleteOrphans);
    ReduceTopicFields(partitions.changeType, replicas.changeType, configs);
    var c := TopicChange(name, ComputeChangeTypeFrom([partitions.changeType, replicas.changeType] + ConfigChangeTypes(configs)),
                         partitions, replicas, configs);
    HasConfigEntryChangesIff(c);
    c
  }

  /** The topics that yield a change: every desired topic except a delete-annotated
      one that does not exist, plus the orphans when orphans are deleted. */
  predicate Reported(actual: map<string, V1KafkaTopic>, desired: map<string, V1KafkaTopic>, deleteOrphans: bool, k: string) {
    if k in desired then k in actual || !Resource.IsAnnotatedWithDelete(desired[k].metadata.annotations)
    else k in actual && deleteOrphans
  }

  /** `computeChanges`: both states are keyed by topic name. */
  function ComputeChanges(actual: map<string, V1KafkaTopic>, desired: map<string, V1KafkaTopic>,
                          deleteOrphans: bool): (r: map<string, TopicChange>)
    ensures forall k :: k in r <==> Reported(actual, desired, deleteOrphans, k)
    ensures forall k :: k in r ==> r[k].name == k
    ensures forall k :: k in desired && k !in actual && k in r ==> r[k] == AddChange(k, desired[k])
    ensures forall k :: k in actual && k !in desired && k in r ==> r[k] == DeleteChange(k, actual[k])
    ensures forall k :: k in actual && k in desired ==>
      k in r && r[k] == if Resource.IsAnnotatedWithDelete(desired[k].metadata.annotations) then DeleteChange(k, actual[k])
              else UpdateChange(k, actual[k], desired[k], deleteOrphans)
  {
    var keys := set k | k in desired.Keys + actual.Keys && Reported(actual, desired, deleteOrphans, k);
    map k | k in keys ::
      if k !in actual then AddChange(k, desired[k])
      else if k !in desired then DeleteChange(k, actual[k])
      else if Resource.IsAnnotatedWithDelete(desired[k].metadata.annotations) then DeleteChange(k, actual[k])
      else UpdateChange(k, actual[k], desired[k], deleteOrphans)
  }

  // The behaviour the change computer's tests pin down, stated for all inputs.

  /** An actual-only topic yields nothing by default, and a DELETE keeping its
      current values when orphans are deleted. */
  lemma OrphanTopic(actual: map<string, V1KafkaTopic>, desired: map<string, V1KafkaTopic>, k: string)
    requires k in actual && k !in desired
    ensures k !in ComputeChanges(actual, desired, false)
    ensures var c := ComputeChanges(actual, desired, true)[k];
      c.operation == DELETE && c.partitions.before == Some(actual[k].spec.partitions) && c.partitions.after == None
  {
  }

  /** The delete annotation removes an existing topic, with no entry changes, and
      yields nothing for a topic that does not exist. */
  lemma DeleteAnnotation(actual: map<string, V1KafkaTopic>, desired: map<string, V1KafkaTopic>,
                         deleteOrphans: bool, k: string)
    requires k in desired && Resource.IsAnnotatedWithDelete(desired[k].metadata.annotations)
    ensures k in actual ==>
      var c := ComputeChanges(actual, desired, deleteOrphans)[k];
      c.operation == DELETE && !HasConfigEntryChanges(c)
    ensures k !in actual ==> k !in ComputeChanges(actual, desired, deleteOrphans)
  {
  }

  /** A desired-only topic that is not marked for deletion is added. */
  lemma NewTopic(actual: map<string, V1KafkaTopic>, desired: map<string, V1KafkaTopic>,
                 deleteOrphans: bool, k: string)
    requires k in desired && k !in actual && !Resource.IsAnnotatedWithDelete(desired[k].metadata.annotations)
    ensures k in ComputeChanges(actual, desired, deleteOrphans)
    ensures ComputeChanges(actual, desired, deleteOrphans)[k].operation == ADD
  {
  }

  /** A config value that differs makes that entry an UPDATE from the actual to
      the desired value, and the topic an UPDATE. */
  lemma UpdatedConfigEntry(actual: map<string, V1KafkaTopic>, desired: map<string, V1KafkaTopic>,
                           deleteOrphans: bool, k: string, key: string)
    requires k in actual && k in desired && !Resource.IsAnnotatedWithDelete(desired[k].metadata.annotations)
    requires key in actual[k].spec.configs && key in desired[k].spec.configs
    requires actual[k].spec.configs[key] != desired[k].spec.configs[key]
    ensures var c := ComputeChanges(actual, desired, deleteOrphans)[k];
      c.operation == UPDATE && HasConfigEntryChanges(c) && key in c.configs &&
      c.configs[key].changeType == UPDATE &&
      c.configs[key].before == Some(actual[k].spec.configs[key]) &&
      c.configs[key].after == Some(desired[k].spec.configs[key])
  {
    var c := ComputeChanges(actual, desired, deleteOrphans)[k];
    assert c.configs[key].changeType != NONE;
  }

  /** A config key only in the desired state is an ADD entry with no previous
      value, and makes the topic an UPDATE (the reduction never yields ADD). */
  lemma NewConfigEntry(actual: map<string, V1KafkaTopic>, desired: map<string, V1KafkaTopic>,
                       deleteOrphans: bool, k: string, key: string)
    requires k in actual && k in desired && !Resource.IsAnnotatedWithDelete(desired[k].metadata.annotations)
    requires key !in actual[k].spec.configs && key in desired[k].spec.configs
    ensures var c := ComputeChanges(actual, desired, deleteOrphans)[k];
      c.operation == UPDATE && HasConfigEntryChanges(c) && key in c.configs &&
      c.configs[key].changeType == ADD && c.configs[key].before == None &&
      c.configs[key].after == Some(desired[k].spec.configs[key])
  {
    var c := ComputeChanges(actual, desired, deleteOrphans)[k];
    assert c.configs[key].changeType != NONE;
  }

  /** Identical topics give NONE, every entry NONE with the same value on both sides. */
  lemma IdenticalTopics(actual: map<string, V1KafkaTopic>, desired: map<string, V1KafkaTopic>,
                        deleteOrphans: bool, k: string)
    requires k in actual && k in desired && actual[k] == desired[k]
    requires !Resource.IsAnnotatedWithDelete(desired[k].metadata.annotations)
    ensures var c := ComputeChanges(actual, desired, deleteOrphans)[k];
      c.operation == NONE && !HasConfigEntryChanges(c) && c.configs.Keys == desired[k].spec.configs.Keys &&
      forall key :: key in c.configs ==>
        c.configs[key].changeType == NONE && c.configs[key].before == c.configs[key].after == Some(desired[k].spec.configs[key])
  {
  }

  /** An actual-only config entry is deleted, keeping its value as `before`, when
      orphans are deleted; otherwise a topic that agrees on everything else is NONE. */
  lemma OrphanConfigEntry(actual: map<string, V1KafkaTopic>, desired: map<string, V1KafkaTopic>,
                          k: string, key: string)
    requires k in actual && k in desired && !Resource.IsAnnotatedWithDelete(desired[k].metadata.annotations)
    requires key in actual[k].spec.configs && key !in desired[k].spec.configs
    ensures var c := ComputeChanges(actual, desired, true)[k];
      c.operation == UPDATE && HasConfigEntryChanges(c) && key in c.configs &&
      c.configs[key].changeType == DELETE && c.configs[key].before == Some(actual[k].spec.configs[key]) &&
      c.configs[key].after == None
    ensures
      actual[k].spec.partitions == desired[k].spec.partitions && actual[k].spec.replicas == desired[k].spec.replicas &&
      desired[k].spec.configs.Items <= actual[k].spec.configs.Items ==>
      var c := ComputeChanges(actual, desired, false)[k];
      c.operation == NONE && !HasConfigEntryChanges(c)
  {
    var c := ComputeChanges(actual, desired, true)[k];
    assert c.configs[key].changeType != NONE;
    if desired[k].spec.configs.Items <= actual[k].spec.configs.Items {
      var d := ComputeChanges(actual, desired, false)[k];
      forall x | x in d.configs
        ensures d.configs[x].changeType == NONE
      {
        assert (x, desired[k].spec.configs[x]) in desired[k].spec.configs.Items;
      }
    }
  }

  /** A desired "no preference" sentinel makes that field NONE whatever its
      actual value; a topic agreeing on the rest is then NONE. */
  lemma SentinelFields(actual: map<string, V1KafkaTopic>, desired: map<string, V1KafkaTopic>,
                       deleteOrphans: bool, k: string)
    requires k in actual && k in desired && !Resource.IsAnnotatedWithDelete(desired[k].metadata.annotations)
    ensures var c := ComputeChanges(actual, desired, deleteOrphans)[k];
      (desired[k].spec.partitions == NoNumPartitions ==> c.partitions.changeType == NONE) &&
      (desired[k].spec.replicas == NoReplicationFactor ==> c.replicas.changeType == NONE)
    ensures
      (desired[k].spec.partitions == NoNumPartitions || desired[k].spec.partitions == actual[k].spec.partitions) &&
      (desired[k].spec.replicas == NoReplicationFactor || desired[k].spec.replicas == actual[k].spec.replicas) &&
      desired[k].spec.configs == actual[k].spec.configs ==>
      ComputeChanges(actual, desired, deleteOrphans)[k].operation == NONE
  {
  }

  /** Re-diffing a state against itself gives only NONE changes, except for the
      topics that ask to be deleted. */
  lemma DiffWithItself(state: map<string, V1KafkaTopic>, deleteOrphans: bool)
    ensures var r := ComputeChanges(state, state, deleteOrphans);
      r.Keys == state.Keys &&
      forall k :: k in r ==>
        r[k].operation == (if Resource.IsAnnotatedWithDelete(state[k].metadata.annotations) then DELETE else NONE)
  {
    var r := ComputeChanges(state, state, deleteOrphans);
    forall k | k in r && !Resource.IsAnnotatedWithDelete(state[k].metadata.annotations)
      ensures r[k].operation == NONE
    {
      IdenticalTopics(state, state, deleteOrphans, k);
    }
  }
}

=== FILE: topic_max_replication_factor_validation.dfy ===
/** `TopicMaxReplicationFactorValidation`: rejects a topic whose replication
    factor exceeds the configured maximum. The maximum is a field set by
    `configure`; checking a topic only reads it. */
module TopicMaxReplicationFactorValidation {
  import opened Wrappers

  /** `KafkaConstants.NO_REPLICATION_FACTOR`. */
  const NoReplicationFactor: int := -1

  /** `VALIDATION_TOPIC_MAX_REPLICATION_FACTOR_CONFIG`'s key. */
  const MaxReplicationFactorKey: string := "topic-max-replication-factor"

  /** The integer-valued entries of a `Configuration`. */
  type Configuration = map<string, int>

  /** The validation the error message of `configure` names. The source formats
      the class name of `TopicNameSuffixValidation` here, not its own. */
  const ConfigErrorValidationName: string := "TopicNameSuffixValidation"

  /** `ConfigException`: the required property is missing; `validation` is the
      class name the message reports it for. */
  datatype ConfigException = MissingProperty(key: string, validation: string)

  /** `V1KafkaTopicObject`: a name and a possibly null replication factor. */
  datatype V1KafkaTopicObject = V1KafkaTopicObject(name: string, replicationFactor: Option<int>)

  /** The outcome of `validateTopic`: it returns normally, throws a
      `ValidationException` naming the topic, the factor and the maximum, or,
      when the validation was never configured, unboxes a null maximum. */
  datatype ValidationOutcome =
    | Valid
    | TooHighReplicationFactor(topic: string, factor: int, max: int)
    | MaxNotConfigured

  class Validation {
    /** `maxReplicationFactor`: null until configured. */
    var maxReplicationFactor: Option<int>

    /** The empty constructor: nothing configured yet. */
    constructor ()
      ensures maxReplicationFactor == None
    {
      maxReplicationFactor := None;
    }

    /** The int constructor: configures the property with the given value. */
    constructor WithMax(max: int)
      ensures maxReplicationFactor == Some(max)
    {
      maxReplicationFactor := Some(max);
    }

    /** `configure`: reads the property, throwing when it is absent (the field is
        then left as it was). */
    method Configure(config: Configuration) returns (r: Result<(), ConfigException>)
      modifies this
      ensures MaxReplicationFactorKey in config ==>
        r.Success? && maxReplicationFactor == Some(config[MaxReplicationFactorKey])
      ensures MaxReplicationFactorKey !in config ==>
        r == Failure(MissingProperty(MaxReplicationFactorKey, ConfigErrorValidationName)) && maxReplicationFactor == old(maxReplicationFactor)
    {
      if MaxReplicationFactorKey in config {
        maxReplicationFactor := Some(config[MaxReplicationFactorKey]);
        r := Success(());
      } else {
        r := Failure(MissingProperty(MaxReplicationFactorKey, ConfigErrorValidationName));
      }
    }

    /** `validateTopic`: a null factor and the sentinel always pass; any other
        factor passes when it is at most the maximum. */
    function ValidateTopic(topic: V1KafkaTopicObject): (r: ValidationOutcome)
      reads this
      ensures topic.replicationFactor.None? ==> r == Valid
      ensures topic.replicationFactor == Some(NoReplicationFactor) ==> r == Valid
      ensures r.TooHighReplicationFactor? <==>
        topic.replicationFactor.Some? && topic.replicationFactor.value != NoReplicationFactor &&
        maxReplicationFactor.Some? && topic.replicationFactor.value > maxReplicationFactor.value
      ensures r.TooHighReplicationFactor? ==>
        r == TooHighReplicationFactor(topic.name, topic.replicationFactor.value, maxReplicationFactor.value)
      ensures r == MaxNotConfigured <==>
        topic.replicationFactor.Some? && topic.replicationFactor.value != NoReplicationFactor &&
        maxReplicationFactor.None?
    {
      match topic.replicationFactor
      case None => Valid
      case Some(p) =>
        if p == NoReplicationFactor then Valid
        else match maxReplicationFactor
          case None => MaxNotConfigured
          case Some(max) => if p > max then TooHighReplicationFactor(topic.name, p, max) else Valid
    }
  }
}

=== FILE: topics_command.dfy ===
/** `TopicsCommand.Base.executeCommand`: the topics described on the cluster and
    the topics of the specification are both narrowed to the candidates, diffed,
    and then either reported as a plan (dry-run) or applied, the results of the
    applied changes being followed by one OK result per unchanged topic. */
module TopicsCommand {
  import opened Wrappers
  import opened Change
  import TC = TopicChangeComputer
  import opened KafkaTopics

  type TopicChange = TC.TopicChange

  /** The status of an `OperationResult`. */
  datatype Status = OK | CHANGED | FAILED

  /** `OperationResult`: the status, the change, its description and the error of a failed apply. */
  datatype OperationResult = OperationResult(status: Status, change: TopicChange, description: string, error: Option<string>)

  /** What the future of one applied change ends with. */
  datatype ApplyOutcome = Completed | Failed(error: string)

  /** One entry of the map returned by `topicChanges.apply(operation)`, in its iteration order. */
  datatype AppliedEntry = AppliedEntry(key: string, outcome: ApplyOutcome)

  /** The topics of a state that `isResourceCandidate` keeps, by name. */
  function Candidates(topics: map<string, V1KafkaTopic>, isCandidate: string -> bool): (r: map<string, V1KafkaTopic>)
    ensures forall k :: k in r <==> k in topics && isCandidate(k)
    ensures forall k :: k in r ==> r[k] == topics[k]
  {
    map k | k in topics && isCandidate(k) :: topics[k]
  }

  /** The diff of the candidate topics only: the same predicate filters the
      described topics and the specification's topics. */
  function CandidateChanges(described: map<string, V1KafkaTopic>, specs: map<string, V1KafkaTopic>,
                            isCandidate: string -> bool, deleteOrphans: bool): map<string, TopicChange>
  {
    TC.ComputeChanges(Candidates(described, isCandidate), Candidates(specs, isCandidate), deleteOrphans)
  }

  /** A topic outside the candidates never produces a change, whatever the two
      states hold for it; a candidate gets the change the unfiltered diff gives it. */
  lemma CandidatesOnly(described: map<string, V1KafkaTopic>, specs: map<string, V1KafkaTopic>,
                       isCandidate: string -> bool, deleteOrphans: bool)
    ensures var r := CandidateChanges(described, specs, isCandidate, deleteOrphans);
      var full := TC.ComputeChanges(described, specs, deleteOrphans);
      forall k :: (k in r <==> k in full && isCandidate(k)) && (k in r ==> r[k] == full[k])
  {
  }

  /** `order` lists every key of `keys` exactly once: the iteration order of `all()`. */
  ghost predicate IsEnumeration(order: seq<string>, keys: set<string>) {
    (forall i, j :: 0 <= i < j < |order| ==> order[i] != order[j]) &&
    (forall k :: k in keys <==> k in order)
  }

  /** The changes in the order of `all()`. */
  function All(changes: map<string, TopicChange>, order: seq<string>): (all: seq<TopicChange>)
    requires forall k :: k in order ==> k in changes
    ensures |all| == |order| && forall i :: 0 <= i < |order| ==> all[i] == changes[order[i]]
  {
    seq(|order|, i requires 0 <= i < |order| => changes[order[i]])
  }

  /** Reported in dry-run: what the operation supports, and every NONE change. */
  predicate Eligible(c: TopicChange, test: TopicChange -> bool) {
    test(c) || c.operation == NONE
  }

  /** The planned result of one change: `ok` for NONE, `changed` otherwise. */
  function PlanResult(c: TopicChange, describe: TopicChange -> string): (r: OperationResult)
    ensures r.change == c && r.description == describe(c) && r.error == None
    ensures r.status == OK <==> c.operation == NONE
    ensures r.status != FAILED
  {
    OperationResult(if c.operation == NONE then OK else CHANGED, c, describe(c), None)
  }

  /** The dry-run results, in the order of the changes. */
  function DryRunResults(all: seq<TopicChange>, test: TopicChange -> bool, describe: TopicChange -> string)
    : seq<OperationResult>
    decreases |all|
  {
    if all == [] then []
    else
      var c := all[|all| - 1];
      DryRunResults(all[..|all| - 1], test, describe) + (if Eligible(c, test) then [PlanResult(c, describe)] else [])
  }

  /** The results appended after the applied ones: one `ok` per NONE change. */
  function NoneResults(all: seq<TopicChange>, describe: TopicChange -> string): seq<OperationResult>
    decreases |all|
  {
    if all == [] then []
    else
      var c := all[|all| - 1];
      NoneResults(all[..|all| - 1], describe)
        + (if c.operation == NONE then [OperationResult(OK, c, describe(c), None)] else [])
  }

  /** The result of one applied change, tied to the change with the entry's key. */
  function AppliedResult(e: AppliedEntry, changes: map<string, TopicChange>, describe: TopicChange -> string): (r: OperationResult)
    requires e.key in changes
    ensures r.change == changes[e.key] && r.description == describe(changes[e.key])
    ensures r.status == CHANGED <==> e.outcome.Completed?
    ensures r.status == FAILED <==> e.outcome.Failed?
    ensures e.outcome.Failed? ==> r.error == Some(e.outcome.error)
    ensures e.outcome.Completed? ==> r.error == None
  {
    var c := changes[e.key];
    match e.outcome
    case Completed => OperationResult(CHANGED, c, describe(c), None)
    case Failed(err) => OperationResult(FAILED, c, describe(c), Some(err))
  }

  /** `applyChanges`: one result per entry of the apply map, in its order. */
  function ApplyChanges(applied: seq<AppliedEntry>, changes: map<string, TopicChange>, describe: TopicChange -> string)
    : (rs: seq<OperationResult>)
    requires forall e :: e in applied ==> e.key in changes
    ensures |rs| == |applied|
    ensures forall i :: 0 <= i < |applied| ==> rs[i] == AppliedResult(applied[i], changes, describe)
  {
    seq(|applied|, i requires 0 <= i < |applied| => AppliedResult(applied[i], changes, describe))
  }

  /** Dry-run reports a change exactly when it is eligible, `ok` for NONE and
      `changed` otherwise; no result is FAILED. */
  lemma {:induction false} DryRunReportsEligible(all: seq<TopicChange>, test: TopicChange -> bool,
                                                 describe: TopicChange -> string)
    ensures forall r :: r in DryRunResults(all, test, describe) ==>
      r.change in all && Eligible(r.change, test) && r == PlanResult(r.change, describe)
    ensures forall c :: c in all && Eligible(c, test) ==>
      PlanResult(c, describe) in DryRunResults(all, test, describe)
    ensures |DryRunResults(all, test, describe)| <= |all|
    decreases |all|
  {
    if all != [] {
      var init := all[..|all| - 1];
      DryRunReportsEligible(init, test, describe);
      assert all == init + [all[|all| - 1]];
    }
  }

  /** Outside dry-run, the trailing results are exactly the NONE changes, each `ok`. */
  lemma {:induction false} NoneResultsAreOk(all: seq<TopicChange>, describe: TopicChange -> string)
    ensures forall r :: r in NoneResults(all, describe) ==>
      r.status == OK && r.change in all && r.change.operation == NONE && r.description == describe(r.change)
    ensures forall c :: c in all && c.operation == NONE ==>
      OperationResult(OK, c, describe(c), None) in NoneResults(all, describe)
    decreases |all|
  {
    if all != [] {
      var init := all[..|all| - 1];
      NoneResultsAreOk(init, describe);
      assert all == init + [all[|all| - 1]];
    }
  }

  /** The dry-run branch: each change of `all()`, in order, that the operation
      supports or that is NONE is added to the results. */
  method PlanChanges(all: seq<TopicChange>, test: TopicChange -> bool, describe: TopicChange -> string)
    returns (results: seq<OperationResult>)
    ensures results == DryRunResults(all, test, describe)
  {
    results := [];
    var i := 0;
    while i < |all|
      invariant 0 <= i <= |all|
      invariant results == DryRunResults(all[..i], test, describe)
    {
      var change := all[i];
      assert all[..i + 1][..i] == all[..i];
      if test(change) || change.operation == NONE {
        var status := if change.operation == NONE then OK else CHANGED;
        results := results + [OperationResult(status, change, describe(change), None)];
      }
      i := i + 1;
    }
    assert all[..|all|] == all;
  }

  /** The apply branch: the applied results, then one `ok` per NONE change of
      `all()`, in order. */
  method ApplyAndReport(applied: seq<AppliedEntry>, changes: map<string, TopicChange>, all: seq<TopicChange>,
                        describe: TopicChange -> string)
    returns (results: seq<OperationResult>)
    requires forall e :: e in applied ==> e.key in changes
    ensures results == ApplyChanges(applied, changes, describe) + NoneResults(all, describe)
  {
    results := ApplyChanges(applied, changes, describe);
    var i := 0;
    while i < |all|
      invariant 0 <= i <= |all|
      invariant results == ApplyChanges(applied, changes, describe) + NoneResults(all[..i], describe)
    {
      var change := all[i];
      assert all[..i + 1][..i] == all[..i];
      if change.operation == NONE {
        results := results + [OperationResult(OK, change, describe(change), None)];
      }
      i := i + 1;
    }
    assert all[..|all|] == all;
  }

  /** `executeCommand`, from the diff on: `order` is the iteration order of
      `topicChanges.all()` and `applied` the entries of the apply map. In dry-run
      the apply map is never looked at. */
  method ExecuteCommand(described: map<string, V1KafkaTopic>, specs: map<string, V1KafkaTopic>,
                        isCandidate: string -> bool, deleteOrphans: bool, order: seq<string>,
                        dryRun: bool, test: TopicChange -> bool, describe: TopicChange -> string,
                        applied: seq<AppliedEntry>)
    returns (results: seq<OperationResult>)
    requires IsEnumeration(order, CandidateChanges(described, specs, isCandidate, deleteOrphans).Keys)
    requires forall e :: e in applied ==> e.key in CandidateChanges(described, specs, isCandidate, deleteOrphans)
    ensures var changes := CandidateChanges(described, specs, isCandidate, deleteOrphans);
      var all := All(changes, order);
      results == if dryRun then DryRunResults(all, test, describe)
                 else ApplyChanges(applied, changes, describe) + NoneResults(all, describe)
  {
    var topicChanges := CandidateChanges(described, specs, isCandidate, deleteOrphans);
    var all := All(topicChanges, order);
    if dryRun {
      results := PlanChanges(all, test, describe);
    } else {
      results := ApplyAndReport(applied, topicChanges, all, describe);
    }
  }
}

=== FILE: wrappers.dfy ===
/** Optional values (Java's nullable references) and results carrying an error
    (Java's thrown exceptions), shared by every module of the model. */
module Wrappers {

  /** A nullable reference: `None` stands for Java's `null`. */
  datatype Option<+T> = None | Some(value: T) {
    function GetOr(default: T): T {
      match this
      case Some(v) => v
      case None => default
    }
  }

  /** The outcome of an operation that may throw: `Failure` carries the exception. */
  datatype Result<+R, +E> = Success(value: R) | Failure(error: E)

  /** Java's `Map.get`: the value under `k`, or `null`. */
  function Get<K, V>(m: map<K, V>, k: K): (r: Option<V>)
    ensures r.Some? <==> k in m
    ensures r.Some? ==> r.value == m[k]
  {
    if k in m then Some(m[k]) else None
  }
}
